=== FILE: README.md ===
# Launcher decision rules, in Dafny

`launcher.py` is a tkinter launcher for a Minecraft client (the "MNC_KA Client"). Most of it
is window code and calls into `minecraft_launcher_lib`. This project models the rules that the
window code applies on its own. It states what they promise and proves it.

- **Button-image cache** (`images_cache`, `_cleanup_cache`, the cache path of
  `create_buttons`). Rendered button sets are keyed by the window's `(width, height)`, and
  the cache holds at most `_max_cache_size` = 5 entries. Once it holds more, the keys in
  `sorted(keys)[:-5]` are deleted. Python orders tuples lexicographically, so the cache keeps
  the five *largest* window sizes, not the five newest ones. The entry just stored can be
  evicted at once.
- **User configuration** (`guardar` in `configurar_usuario`). Both fields are stripped and
  must be non-empty. The RAM text must be a Python integer. The user name and the RAM amount
  are stored together or not at all.
- **Launch preconditions and options** (`iniciar_minecraft` up to the command builder). The
  configuration check comes first: an empty name or a RAM of exactly 0 fails it. A negative
  RAM passes, and ends up as `-Xmx-2G`. The selection check comes next. Last, a
  `fabric-loader-` id needs `versions/<id>/<id>.jar` on disk. The options carry the name,
  empty `uuid` and `token`, the heap flags `-Xmx{ram}G` and `-Xms{ram}G`, and
  `launcherVersion` `1.0.0`.
- **Fabric versions and version selection**. A successful install records
  `fabric_versions[v] = "fabric-loader-0.16.10-" + v`. The version list hides every id that
  contains `fabric-loader`. "Seleccionar" picks the Fabric id only when the box is ticked and
  the version has a recorded install; otherwise it picks the bare id.
- **Extra mods**. `post_fabric_install_prompt` asks two yes/no questions. It calls
  `download_mod_direct` for the skin mod on the first yes, and for Sodium and then Lithium on
  the second. Then it writes the marker `mods_installed_<v>.txt`, which stops the questions
  from being asked again. Each `download_mod_direct` call for a mod other than Fabric API asks
  whether to fetch Fabric API first, whenever no file in the mods folder mentions
  `fabric-api`. Each call lists the folder afresh, and the model takes that listing as an
  input. Downloads run on background threads, and a download creates its file only once the
  server answers (launcher.py:305). A Fabric API file usually shows in a later listing when a
  question came in between, because the download has the user's reading time to start
  writing. Otherwise it usually does not. The optimization question (launcher.py:246) lies
  between the skin mod's call and Sodium's call. The first question of
  `post_fabric_install_prompt` lies between the unasked Fabric API download of
  `instalar_fabric_prompt` and the skin mod's call. But Lithium's call (launcher.py:248)
  follows Sodium's at once: a Fabric API download that Sodium's call starts after its own
  question has usually not created its file when Lithium's call lists the folder. So with an
  empty mods folder, a yes to both optimization mods' Fabric API questions usually requests
  Fabric API twice. Nothing guarantees any of this timing, so each contract holds for every
  listing, and the usual case is a named assumption (`Mods.UsualTiming`).

Modules: `Results` (Option/Result), `Text` (ASCII `strip`, `lower`, `in`, `startswith`,
`int()`, `str()`), `ButtonCache`, `LauncherState` (the session record), `Settings`, `Launch`,
`Mods`, `Versions`, and `Scenarios` (properties spanning several actions).

The cache deletes the keys of `sorted(keys)[:-5]`, which are the lexicographically smallest
window sizes, whatever their age. `ButtonCache.OldestEntryCanSurvive` shows an oldest entry
that survives, and `ButtonCache.NewEntryCanBeEvicted` shows the newest one being evicted.

External effects are inputs to the model:
- The outcome of each Fabric install call is a boolean.
- The installed-version list is a sequence of ids.
- The files under the client folder are a set of paths.
- The mods folder is a set of file names, marker files included.
- Each yes/no dialog answer is a boolean.

## Model

| member | source | states |
|---|---|---|
| `ButtonCache.Cleanup` | launcher.py:118-121 | At most 5 entries remain. A cache of 5 or fewer is returned unchanged; a larger one shrinks to exactly 5. Surviving keys keep their values, and every evicted key is below every kept key in tuple order. |
| `ButtonCache.SortedKeys` | launcher.py:120 | `sorted(keys)`: strictly ascending in tuple order, holding exactly the given keys, one position per key. |
| `ButtonCache.DeleteAll` | launcher.py:120-121 | Deleting the listed keys one by one removes exactly those keys and leaves every other value as it was. |
| `ButtonCache.CleanupKeepsTopRanked` | launcher.py:118-121 | In an over-full cache, a key survives exactly when fewer than 5 other cached keys are larger than it. This is a rank-based reference definition of "the 5 largest". |
| `ButtonCache.EvictedWhenOutranked` | launcher.py:118-121 | A key that has 5 larger cached keys beside it is evicted. |
| `ButtonCache.LargestSurvives` | launcher.py:118-121 | A key that no other cached key outranks is never evicted. |
| `ButtonCache.CreateButtons` | launcher.py:130-160 | A hit returns the cached set and leaves the cache untouched. A miss shows the rendered set, stores it under the new key and runs the cleanup on the result, so below the bound the cache simply gains the entry. Old values are kept, and a cache within the bound stays within it. |
| `ButtonCache.ReplayBounded` | launcher.py:123-160 | Over any series of `create_buttons` calls, a cache that starts within 5 entries never exceeds 5. |
| `ButtonCache.NewEntryCanBeEvicted` | launcher.py:159-160 | The entry just stored can be evicted by the cleanup in the same call. |
| `ButtonCache.OldestEntryCanSurvive` | launcher.py:118-121 | Eviction is by size, not age: the oldest entry survives when it is the largest. |
| `Text.Trim` | launcher.py:467-468 | `strip()` returns the empty string exactly when the input is all whitespace. Otherwise the result neither starts nor ends with whitespace. |
| `Text.TrimIsUnique` | launcher.py:467-468 | Any slice with only whitespace around it and no whitespace at its ends is the stripped string. |
| `Text.TrimIdempotent` | launcher.py:467-468 | Stripping twice is stripping once. |
| `Text.ParseInt` | launcher.py:473 | A text is accepted exactly when it is a digit run (digits with single underscores between digits), optionally after one `+` or `-`. An accepted text holds no whitespace and ends in a digit, and a negative result comes from a leading `-`. |
| `Text.ParseFormatRoundTrip` | launcher.py:473 | `int(str(n)) == n` for every integer. |
| `Text.FormatParseRoundTrip` | launcher.py:473 | `str(int(s)) == s` for every text in the form `str()` writes (no sign but a `-`, no underscore, no leading zero, no `-0`). With `ParseFormatRoundTrip` this makes `int()` and `str()` inverse on those texts. |
| `Text.ParseIntSign` | launcher.py:473 | A `+` in front of a digit run keeps its value and a `-` negates it. |
| `Text.ParseIntLeadingZero` | launcher.py:473 | A leading `0` in front of a digit run does not change its value. |
| `Text.ParseIntUnderscore` | launcher.py:473 | One underscore between two digit runs is ignored: `int(a + "_" + b) == int(a + b)`. |
| `Text.ParseIntAcceptedExamples` | launcher.py:473 | `int("+5") == 5`, `int("007") == 7`, `int("1_000") == 1000` and `int("-12") == -12`. |
| `Text.ParseIntRefusedExamples` | launcher.py:473 | `1__0`, `_1`, `1_`, the empty text, a lone `-` and `4 GB` raise `ValueError`. |
| `Text.ContainsAt` | launcher.py:351 | `p in s` holds exactly when `p` occurs at some offset of `s`. |
| `Text.LowerIdempotent` | launcher.py:262-263 | `lower()` is idempotent and leaves no upper-case ASCII letter. |
| `Settings.Save` | launcher.py:466-479 | The "fill all fields" error comes exactly when a stripped field is empty, and the "RAM must be an integer" error exactly when both are filled but the RAM text is no integer. On error nothing changes. On success the name becomes the stripped text and the RAM the parsed value, together, and nothing else changes. |
| `Settings.SaveFormattedRam` | launcher.py:466-479 | Typing the decimal text of `n`, with any blanks before it and any other blanks after it, stores exactly `n`. |
| `Settings.SaveIdempotent` | launcher.py:466-479 | Saving the same texts twice equals saving them once. |
| `Launch.PrepareLaunch` | launcher.py:395-416 | The configuration error comes first and happens exactly when the name is empty or the RAM is 0. The version error happens exactly when the configuration is set but nothing is selected. The jar error happens exactly for a `fabric-loader-` id whose jar is absent. On success the request carries the selected id, the configured name, empty `uuid` and `token`, launcher version `1.0.0`, and two heap flags that read back as the configured RAM. |
| `Launch.HeapFlagRoundTrip` | launcher.py:407 | The amount read back from `-Xmx{ram}G` / `-Xms{ram}G` is `ram`. |
| `Launch.LaunchArguments` | launcher.py:403-409 | A successful launch's JVM arguments are exactly `["-Xmx{ram}G", "-Xms{ram}G"]`. |
| `Mods.DownloadMod` | launcher.py:252-266 | The requested mod always comes last. Fabric API comes first exactly when the mod is not Fabric API (compared case-insensitively), no mods-folder file mentions `fabric-api`, and the user accepts. |
| `Mods.NoOfferOnceFabricApiSaved` | launcher.py:262-267 | Once the Fabric API jar is in the mods folder, no mod triggers the question again. |
| `Mods.NoApiQuestionOnceListed` | launcher.py:260-266 | When a call's listing holds the Fabric API jar, downloading any mod asks nothing and requests that mod alone. |
| `Mods.FabricApiFileMentionsApi` | launcher.py:263 | The saved Fabric API file name passes the `fabric-api` test. |
| `Mods.PostInstallPrompt` | launcher.py:236-250 | Afterwards the marker exists, and only the marker is added. If it was already there, nothing is asked or requested. Otherwise, leaving Fabric API aside, the requests are exactly the prompt's own calls in order. Fabric API is requested exactly when some extra mod's call finds no file mentioning `fabric-api` in its own listing and gets a yes to its Fabric API question. A Fabric API request stands right before a mod exactly when that mod's call asked and got that yes. |
| `Mods.PromptDownloads` | launcher.py:244-248 | The downloads of the prompt's calls: apart from Fabric API they are the skin mod on the first yes, then Sodium and Lithium on the second. Fabric API stands right before a mod exactly when that mod's call, against its own listing, asked about Fabric API and got a yes, and appears nowhere else. |
| `Mods.MixedAnswersExample` | launcher.py:246-266 | With no Fabric API file listed, declining Sodium's Fabric API question and accepting Lithium's requests Sodium, Fabric API, then Lithium. |
| `Mods.DirectCalls` | launcher.py:244-248 | The skin mod is called for exactly on the first yes, and Sodium and Lithium exactly on the second. Fabric API is never one of the prompt's own calls. |
| `Mods.ApiBeforeEveryExtraMod` | launcher.py:244-266 | When no call's listing shows a Fabric API file and every Fabric API question is answered yes, the requests alternate: Fabric API, then the next extra mod, for each extra mod. |
| `Mods.SkinApiYesSettlesIt` | launcher.py:244-266 | In the usual timing, a yes to the skin mod's Fabric API question requests Fabric API once, right before the skin mod, and the prompt's other calls ask nothing. |
| `Mods.LithiumAsksAgain` | launcher.py:246-266 | In the usual timing, once Sodium's call has asked about Fabric API and got a yes, Lithium's call asks again. The requests are the skin mod on the first yes, then Fabric API and Sodium, then Fabric API again before Lithium exactly on a second yes. |
| `Mods.SodiumThenLithiumAsksTwice` | launcher.py:246-266 | With an empty mods folder and the usual timing, a yes to the optimization mods and to both Fabric API questions requests Fabric API, Sodium, Fabric API, Lithium. |
| `Mods.NoApiRequestWhenPresent` | launcher.py:260-266 | With a Fabric API file in the folder before the prompt, and every call's listing keeping the files that were there, the prompt requests exactly its own calls and never Fabric API. |
| `Mods.PromptOnlyOnce` | launcher.py:241-243 | A second prompt for the same version asks nothing and changes nothing. |
| `Mods.MarkersAreIndependent` | launcher.py:241 | Prompting for one version does not write or remove another version's marker. |
| `Mods.MarkerFileInjective` | launcher.py:241 | Distinct versions have distinct marker files. |
| `Versions.RecordFabric` | launcher.py:368-370 | The map gains exactly the key `v`, with the value `"fabric-loader-0.16.10-" + v`, which is a `fabric-loader-` id. Other entries and the rest of the state are unchanged. |
| `Versions.FabricVersionIdInjective` | launcher.py:369 | Distinct versions get distinct Fabric ids, so an id is never recorded for two versions. |
| `Versions.FabricVersionIdShape` | launcher.py:369 | A recorded Fabric id starts with `fabric-loader-`, so launch checks its jar. It also contains `fabric-loader`, so the version list hides it. |
| `Versions.ListedIsNotFabricId` | launcher.py:349-352 | An id without `fabric-loader` in it never passes the launch-time Fabric test. |
| `Versions.VisibleVersions` | launcher.py:349-352 | The listed ids are exactly the installed ids that do not contain `fabric-loader`. |
| `Versions.VisibleVersionsAppend` | launcher.py:349-352 | The filter works entry by entry: the rows of `a + b` are the rows of `a` followed by those of `b`, so the installed order and repetitions are kept. |
| `Versions.VisibleVersionsOne` | launcher.py:350-352 | A single installed id is listed as itself exactly when it does not contain `fabric-loader`. |
| `Versions.ShowVersions` | launcher.py:342-352 | The "no versions" message appears exactly when nothing at all is installed; otherwise the filtered list is shown. |
| `Versions.OnlyFabricInstalledShowsEmptyWindow` | launcher.py:342-352 | If only Fabric ids are installed, the window opens with no rows. |
| `Versions.CheckboxLabel` | launcher.py:357 | The caption is "Activar Fabric" exactly when the version has a recorded install, and "Instalar Fabric" otherwise. |
| `Versions.Toggle` | launcher.py:361-378 | Only the Fabric map can change. It gains `v`, with its Fabric id, exactly when the box was ticked for a version without Fabric and the user confirmed and the install succeeded. Existing entries are kept. The box stays ticked exactly when the version then has Fabric. |
| `Versions.ToggleRelabels` | launcher.py:357-371 | After `on_toggle`, the caption reads "Activar Fabric" exactly when the version had Fabric already or the install just succeeded. |
| `Versions.ToggleInstalledChangesNothing` | launcher.py:362 | For a version that already has Fabric, `on_toggle` asks nothing and changes nothing. |
| `Versions.ToggleThenSelect` | launcher.py:361-389 | After `on_toggle`, "Seleccionar" with the box value it left picks the bare id when the box is clear, and otherwise the Fabric id recorded before or just installed. |
| `Versions.Select` | launcher.py:381-391 | The selection becomes the mapped Fabric id when the box is ticked and `v` has a recorded install, and `v` otherwise. In that Fabric case the mods folder gains exactly the marker and the requests are those of the additional-mods prompt. Otherwise nothing is requested and the folder is unchanged. Name, RAM and the Fabric map never change. |
| `Versions.InstallFabricFromPrompt` | launcher.py:208-230 | An all-blank version text is refused, as is a failed install, and both leave the state unchanged. On success the map gains the stripped version's Fabric id, the folder gains exactly its marker, and name, RAM and selection are unchanged. Fabric API is the first download. Apart from Fabric API, the rest are the prompt's calls, or none if the marker was there. After the first download, Fabric API is requested exactly when the marker was absent and some extra mod's call, against its own listing, asked about Fabric API and got a yes, and then right before that mod. |
| `Versions.DialogDownloads` | launcher.py:222-225 | A successful dialog requests Fabric API, then the downloads of the additional-mods prompt for the stripped version. |
| `Versions.InstallThenSelect` | launcher.py:381-386 | After the dialog succeeds, "Seleccionar" with the box ticked picks the Fabric id and requests nothing, because the marker is written. |
| `Scenarios.FreshSessionCannotLaunch` | launcher.py:397-399 | A fresh session fails the configuration check before the selection is looked at. |
| `Scenarios.NegativeRamPassesConfigurationCheck` | launcher.py:397-399 | A negative RAM amount is not refused by the configuration check. |
| `Scenarios.SaveThenLaunch` | launcher.py:403-409 | After a successful save with a non-zero amount and a plain version selected, the launch goes ahead with the stripped name and the saved amount. |
| `Scenarios.FailedSaveKeepsLaunchOutcome` | launcher.py:469-479 | A failed save leaves the launch outcome unchanged. |
| `Scenarios.ListedPlainSelectionLaunches` | launcher.py:410-416 | A listed version selected without Fabric skips the jar check and launches under its own id. |
| `Scenarios.FabricSelectionNeedsJar` | launcher.py:410-416 | After a Fabric install, selecting the version with the box ticked chooses the Fabric id. Launching it then succeeds exactly when that id's jar is on disk. |
| `Scenarios.SecondFabricSelectionAsksNothing` | launcher.py:384-386 | Selecting a Fabric version a second time requests no further mods. |
| `Scenarios.DialogCanRequestFabricApiTwice` | launcher.py:223-266 | With an empty mods folder, a successful dialog with a yes to the skin mod and to its Fabric API question requests Fabric API, Fabric API again, then the skin mod, when the first Fabric API download has not created its file by the time the skin mod's call lists the folder. |
| `Scenarios.DialogRequestsFabricApiOnce` | launcher.py:223-266 | In the same dialog, when the skin mod's call already lists the Fabric API jar, Fabric API is requested once, then the skin mod. |
| `LauncherState.Initial` | launcher.py:87-89 | A new session has an empty name, a RAM of 0, no selection and no recorded Fabric install (`fabric_versions = {}` at launcher.py:48); the mods folder is whatever is on disk. |

## Left out

- Windows, dialogs, buttons and message boxes: dialog answers are boolean inputs and the
  error dialogs are error values.
- Button geometry (`int(rx * width)`) and PIL image loading and resizing: float arithmetic
  and an imaging library. A rendered button set is an opaque input value.
- The resize debounce in `_handle_resize`: it depends on wall-clock time and tk timers.
- Background threads and `window.after` marshalling. Each install's outcome is an input, and
  its effect is applied at once.
- The HTTP download, the file write and the progress bar of `download_mod_direct`: network
  I/O and float arithmetic. A download is a request in the model.
- The listing each `download_mod_direct` call sees is an input (`Mods.Listings`). The model
  does not restrict it to the range the download timing allows: anything from the folder
  before the action to that folder plus the files of the downloads already started. The
  usual timing is stated as an assumption (`Mods.UsualTiming`), not derived.
- Two downloads of the same Fabric API jar can run at once and write the same file. The
  model records both requests but not the race between the two writes.
- `Mods.FileName`: download URLs and percent-decoding (`urllib.parse.unquote`, section 2.1
  of RFC 3986) are not modelled. Each saved file name is the decoded last URL segment,
  written out by hand.
- `minecraft_launcher_lib` (`install_minecraft_version`, `install_fabric`,
  `get_installed_versions`, `get_minecraft_command`): foreign library calls whose results are
  inputs. The error dialog for a failing command build (launcher.py:417-422) is out too.
- `subprocess`, `webbrowser`, `pygame`, opening the versions folder, and `resource_path`:
  OS plumbing.
- `create_minecraft_folders`: directory creation is file-system I/O.
- `preguntar_version`: a strip-and-non-empty check in front of a foreign install call. It is
  not part of this model.
- `os.path.join`: paths are component lists (`versions/<id>/<id>.jar`) relative to the client
  folder, so an id containing a separator is not treated specially.
- `Text.Trim`: whitespace is the ASCII subset of Python's `str.isspace()`. Unicode spaces such
  as U+00A0 are not stripped.
- `Text.ParseInt`: accepts Python's ASCII grammar for `int()`: an optional sign, then digits
  with single underscores between digits. Non-ASCII decimal digits are not accepted.
- `Text.ParseInt`: Python 3.11 and later refuse decimal texts of more than 4300 digits with
  `ValueError`, so "La RAM debe ser un número entero" would be shown. The model parses texts
  of any length, because the limit depends on the interpreter version and its settings.
- `Text.Lower`: folds only ASCII letters.
- `Versions.InstallFabricFromPrompt` models `instalar_fabric_prompt`, which nothing in
  launcher.py calls. It is kept because it is the second place a Fabric id is recorded
  (launcher.py:219-220).
- `Versions.Toggle`: the install is modelled as finishing before the next action, and the
  caption change to "Activar Fabric" as applied at once (`Versions.ToggleRelabels`).

=== FILE: button_cache.dfy ===
/** The main window's cache of rendered button sets (`images_cache`), keyed by the window's
    `(width, height)` and bounded by `_max_cache_size`. Rendering itself (proportional
    geometry, image resizing) is outside the model: a freshly rendered button set is an
    input of type `V`. */
module ButtonCache {

  /** A window size `(width, height)` as returned by `winfo_width()` / `winfo_height()`. */
  type Key = (int, int)

  /** `_max_cache_size`. */
  const MaxCacheSize: nat := 5

  /** Python's `<` on 2-tuples of integers: lexicographic, width first, then height. */
  predicate Below(a: Key, b: Key) {
    a.0 < b.0 || (a.0 == b.0 && a.1 < b.1)
  }

  /** `s` is in strictly ascending tuple order (and so holds no key twice). */
  predicate Ascending(s: seq<Key>) {
    forall i, j :: 0 <= i < j < |s| ==> Below(s[i], s[j])
  }

  function Elems(s: seq<Key>): set<Key> {
    set k | k in s
  }

  /** `m` is a least element of `keys`. */
  predicate IsLeast(m: Key, keys: set<Key>) {
    m in keys && forall k :: k in keys ==> !Below(k, m)
  }

  lemma {:induction false} LeastExists(keys: set<Key>)
    requires keys != {}
    ensures exists m :: IsLeast(m, keys)
    decreases |keys|
  {
    var x :| x in keys;
    var rest := keys - {x};
    if rest == {} {
      assert keys == {x};
      assert IsLeast(x, keys);
    } else {
      LeastExists(rest);
      var m :| IsLeast(m, rest);
      if Below(x, m) {
        forall k | k in keys ensures !Below(k, x) {
          if k != x {
            assert !Below(k, m);
          }
        }
        assert IsLeast(x, keys);
      } else {
        assert IsLeast(m, keys);
      }
    }
  }

  /** The smallest key of a non-empty set of window sizes. */
  function Least(keys: set<Key>): (m: Key)
    requires keys != {}
    ensures IsLeast(m, keys)
  {
    LeastExists(keys);
    var m :| IsLeast(m, keys);
    m
  }

  /** Python's `sorted(keys)` on a set of window sizes. */
  function SortedKeys(keys: set<Key>): (s: seq<Key>)
    ensures Ascending(s)
    ensures Elems(s) == keys
    ensures |s| == |keys|
    decreases |keys|
  {
    if keys == {} then []
    else
      var m := Least(keys);
      var rest := SortedKeys(keys - {m});
      forall k | k in rest ensures Below(m, k) {
        assert k in Elems(rest);
      }
      PrependLeast(m, rest);
      [m] + rest
  }

  lemma PrependLeast(m: Key, rest: seq<Key>)
    requires Ascending(rest)
    requires forall k :: k in rest ==> Below(m, k)
    ensures Ascending([m] + rest)
    ensures Elems([m] + rest) == {m} + Elems(rest)
  {
    var s := [m] + rest;
    forall i, j | 0 <= i < j < |s| ensures Below(s[i], s[j]) {
      assert s[j] == rest[j - 1];
      if i > 0 {
        assert s[i] == rest[i - 1];
      }
    }
  }

  /** An ascending sequence holds as many distinct keys as it has positions. */
  lemma {:induction false} AscendingElemsCount(s: seq<Key>)
    requires Ascending(s)
    ensures |Elems(s)| == |s|
  {
    if s != [] {
      AscendingElemsCount(s[1..]);
      assert Elems(s) == {s[0]} + Elems(s[1..]);
      assert s[0] !in Elems(s[1..]);
    }
  }

  /** The `for key in …: del cache[key]` loop: deletes each listed key in turn. */
  function DeleteAll<V>(cache: map<Key, V>, doomed: seq<Key>): (r: map<Key, V>)
    ensures r.Keys == cache.Keys - Elems(doomed)
    ensures forall k :: k in r ==> r[k] == cache[k]
  {
    if doomed == [] then cache
    else
      var r := DeleteAll(cache - {doomed[0]}, doomed[1..]);
      assert Elems(doomed) == {doomed[0]} + Elems(doomed[1..]);
      r
  }

  /** `_cleanup_cache`: once the cache holds more than `MaxCacheSize` entries, delete
      `sorted(keys)[:-MaxCacheSize]`, i.e. every key but the `MaxCacheSize` largest. */
  function Cleanup<V>(cache: map<Key, V>): (r: map<Key, V>)
    ensures |r| <= MaxCacheSize
    ensures |cache| <= MaxCacheSize ==> r == cache
    ensures |cache| > MaxCacheSize ==> |r| == MaxCacheSize
    ensures r.Keys <= cache.Keys
    ensures forall k :: k in r ==> r[k] == cache[k]
    ensures forall k, j :: k in r && j in cache && j !in r ==> Below(j, k)
  {
    if |cache| <= MaxCacheSize then cache
    else
      var order := SortedKeys(cache.Keys);
      var cut := |order| - MaxCacheSize;
      var r := DeleteAll(cache, order[..cut]);
      KeepSuffix(order, cut);
      r
  }

  /** Deleting a prefix of the sorted keys leaves exactly the suffix, which is all above
      the deleted part. */
  lemma KeepSuffix(order: seq<Key>, cut: nat)
    requires Ascending(order)
    requires cut <= |order|
    ensures Elems(order) - Elems(order[..cut]) == Elems(order[cut..])
    ensures |Elems(order[cut..])| == |order| - cut
    ensures forall j, k :: j in Elems(order[..cut]) && k in Elems(order[cut..]) ==> Below(j, k)
  {
    assert order == order[..cut] + order[cut..];
    forall k | k in Elems(order[cut..])
      ensures k !in Elems(order[..cut])
    {
      var b :| cut <= b < |order| && order[b] == k;
    }
    forall j, k | j in Elems(order[..cut]) && k in Elems(order[cut..])
      ensures Below(j, k)
    {
      var a :| 0 <= a < cut && order[a] == j;
      var b :| cut <= b < |order| && order[b] == k;
    }
    AscendingElemsCount(order[cut..]);
  }

  /** What `create_buttons` leaves behind: the new cache and the button set shown. */
  datatype Shown<V> = Shown(cache: map<Key, V>, buttons: V)

  /** The cache path of `create_buttons` for a window of size `key`: a hit shows the cached
      set and returns early; a miss shows `rendered`, stores it and runs `Cleanup`. */
  function CreateButtons<V>(cache: map<Key, V>, key: Key, rendered: V): (r: Shown<V>)
    ensures key in cache ==> r.cache == cache && r.buttons == cache[key]
    ensures key !in cache ==> r.buttons == rendered
    ensures key !in cache ==> r.cache == Cleanup(cache[key := rendered])
    ensures key !in cache && |cache| < MaxCacheSize ==> r.cache == cache[key := rendered]
    ensures r.cache.Keys <= cache.Keys + {key}
    ensures forall k :: k in r.cache && k != key ==> r.cache[k] == cache[k]
    ensures key !in cache && key in r.cache ==> r.cache[key] == rendered
    ensures |cache| <= MaxCacheSize ==> |r.cache| <= MaxCacheSize
  {
    if key in cache then Shown(cache, cache[key])
    else Shown(Cleanup(cache[key := rendered]), rendered)
  }

  /** Replays a series of `create_buttons` calls, one per window size seen. */
  function Replay<V>(cache: map<Key, V>, sizes: seq<(Key, V)>): map<Key, V>
    decreases |sizes|
  {
    if sizes == [] then cache
    else Replay(CreateButtons(cache, sizes[0].0, sizes[0].1).cache, sizes[1..])
  }

  /** Starting from a cache within the bound, no series of resizes ever takes it past
      `MaxCacheSize` entries. */
  lemma {:induction false} ReplayBounded<V>(cache: map<Key, V>, sizes: seq<(Key, V)>)
    requires |cache| <= MaxCacheSize
    ensures |Replay(cache, sizes)| <= MaxCacheSize
    decreases |sizes|
  {
    if sizes != [] {
      ReplayBounded(CreateButtons(cache, sizes[0].0, sizes[0].1).cache, sizes[1..]);
    }
  }

  /** The keys `Cleanup` keeps are exactly those outranked by fewer than `MaxCacheSize`
      other keys: a reference definition of "the largest `MaxCacheSize` keys". */
  function Outranking(k: Key, keys: set<Key>): set<Key> {
    set j | j in keys && Below(k, j)
  }

  lemma SubsetCard<T>(a: set<T>, b: set<T>)
    requires a <= b
    ensures |a| <= |b|
  {
    assert b == a + (b - a);
  }

  lemma CleanupKeepsTopRanked<V>(cache: map<Key, V>, k: Key)
    requires k in cache
    requires |cache| > MaxCacheSize
    ensures k in Cleanup(cache) <==> |Outranking(k, cache.Keys)| < MaxCacheSize
  {
    var r := Cleanup(cache);
    if k in r {
      KeptIsOutrankedByFew(cache, r, k);
    } else {
      EvictedIsOutrankedByMany(cache, r, k);
    }
  }

  lemma KeptIsOutrankedByFew<V>(cache: map<Key, V>, r: map<Key, V>, k: Key)
    requires r == Cleanup(cache) && k in r
    ensures |Outranking(k, cache.Keys)| < MaxCacheSize
  {
    var above := Outranking(k, cache.Keys);
    forall j | j in above ensures j in r.Keys - {k} {
      assert Below(k, j);
      if j !in r {
        assert false;
      }
    }
    SubsetCard(above, r.Keys - {k});
  }

  lemma EvictedIsOutrankedByMany<V>(cache: map<Key, V>, r: map<Key, V>, k: Key)
    requires r == Cleanup(cache) && k in cache && k !in r
    ensures |Outranking(k, cache.Keys)| >= MaxCacheSize
  {
    var above := Outranking(k, cache.Keys);
    forall j | j in r.Keys ensures j in above {
      assert Below(k, j);
    }
    SubsetCard(r.Keys, above);
  }

  /** A key with `MaxCacheSize` larger keys beside it is evicted. */
  lemma EvictedWhenOutranked<V>(cache: map<Key, V>, k: Key, larger: set<Key>)
    requires k in cache && larger <= cache.Keys
    requires |larger| >= MaxCacheSize
    requires forall j :: j in larger ==> Below(k, j)
    ensures k !in Cleanup(cache)
  {
    assert k !in larger;
    SubsetCard(larger + {k}, cache.Keys);
    CleanupKeepsTopRanked(cache, k);
    assert larger <= Outranking(k, cache.Keys);
    SubsetCard(larger, Outranking(k, cache.Keys));
  }

  /** A key that no other cached key outranks always survives. */
  lemma LargestSurvives<V>(cache: map<Key, V>, k: Key)
    requires k in cache
    requires forall j :: j in cache ==> !Below(k, j)
    ensures k in Cleanup(cache)
  {
    if |cache| > MaxCacheSize {
      CleanupKeepsTopRanked(cache, k);
      assert Outranking(k, cache.Keys) == {};
    }
  }

  /** The entry just stored can be evicted at once: with five larger sizes cached, a smaller
      window's freshly rendered set does not survive `create_buttons`. */
  lemma NewEntryCanBeEvicted()
    ensures var cache := map[(900, 700) := 1, (901, 700) := 2, (902, 700) := 3,
                             (903, 700) := 4, (904, 700) := 5];
            (800, 600) !in CreateButtons(cache, (800, 600), 6).cache
  {
    var cache := map[(900, 700) := 1, (901, 700) := 2, (902, 700) := 3,
                     (903, 700) := 4, (904, 700) := 5];
    var larger := {(900, 700), (901, 700), (902, 700), (903, 700), (904, 700)};
    assert |larger| == 5;
    EvictedWhenOutranked(cache[(800, 600) := 6], (800, 600), larger);
  }

  /** Eviction is by size, not by age: the oldest entry survives when it is the largest. */
  lemma OldestEntryCanSurvive()
    ensures var cache := map[(1920, 1080) := 0, (800, 600) := 1, (801, 600) := 2,
                             (802, 600) := 3, (803, 600) := 4];
            (1920, 1080) in CreateButtons(cache, (804, 600), 5).cache
  {
    var cache := map[(1920, 1080) := 0, (800, 600) := 1, (801, 600) := 2,
                     (802, 600) := 3, (803, 600) := 4];
    LargestSurvives(cache[(804, 600) := 5], (1920, 1080));
  }
}

=== FILE: launch.dfy ===
/** `iniciar_minecraft` up to the call into the external command builder: the precondition
    checks, in their fixed order, and the options handed to the builder. */
module Launch {
  import opened Results
  import opened Text
  import opened LauncherState

  /** A path below the client folder, as its list of components. */
  type Path = seq<string>

  /** The prefix that marks a Fabric version id (`startswith("fabric-loader-")`). */
  const FabricPrefix: string := "fabric-loader-"

  /** The `launcherVersion` option. */
  const LauncherVersion: string := "1.0.0"

  predicate IsFabricId(id: string) {
    StartsWith(id, FabricPrefix)
  }

  /** `versions/<id>/<id>.jar`, the jar a Fabric version must have on disk. */
  function JarPath(id: string): Path {
    ["versions", id, id + ".jar"]
  }

  /** The error dialogs `iniciar_minecraft` can show before building the command. */
  datatype LaunchError =
    | NotConfigured                          // "Configura usuario y RAM primero"
    | NoVersionSelected                      // "Selecciona una versión primero"
    | FabricJarMissing(jarName: string)      // "No se encontró <id>.jar en versions/<id>"

  /** The `options` dictionary given to the command builder. */
  datatype LaunchOptions = LaunchOptions(
    username: string,
    uuid: string,
    token: string,
    jvmArguments: seq<string>,
    launcherVersion: string)

  /** What reaches the command builder: the version id and the options. */
  datatype LaunchRequest = LaunchRequest(version: string, options: LaunchOptions)

  /** The JVM heap flag `flag` carrying `ram` gigabytes, as `f"{flag}{ram}G"`. */
  function HeapFlag(flag: string, ram: int): string {
    flag + FormatInt(ram) + "G"
  }

  /** The RAM amount a heap flag carries: the text between the flag and the final `G`. */
  function FlagAmount(arg: string, flag: string): Option<int> {
    if StartsWith(arg, flag) && |arg| > |flag| && arg[|arg| - 1] == 'G'
    then ParseInt(arg[|flag|..|arg| - 1])
    else None
  }

  /** The checks of `iniciar_minecraft`, given the set of paths present under the client
      folder. The user configuration is checked first (`not (username and ram)`: an empty
      name or a RAM of exactly 0 fails, a negative RAM passes), then the selection, then,
      for Fabric ids only, the presence of the version's jar. */
  function PrepareLaunch(st: Launcher, files: set<Path>): (r: Result<LaunchRequest, LaunchError>)
    ensures r == Err(NotConfigured) <==> st.username == [] || st.ram == 0
    ensures r == Err(NoVersionSelected) <==>
              st.username != [] && st.ram != 0 && st.selectedVersion == []
    ensures r.Err? && r.error.FabricJarMissing? <==>
              && st.username != [] && st.ram != 0 && st.selectedVersion != []
              && IsFabricId(st.selectedVersion) && JarPath(st.selectedVersion) !in files
    ensures r.Err? && r.error.FabricJarMissing? ==> r.error.jarName == st.selectedVersion + ".jar"
    ensures r.Ok? ==>
              && r.value.version == st.selectedVersion
              && r.value.options.username == st.username
              && r.value.options.uuid == [] && r.value.options.token == []
              && r.value.options.launcherVersion == LauncherVersion
              && |r.value.options.jvmArguments| == 2
              && FlagAmount(r.value.options.jvmArguments[0], "-Xmx") == Some(st.ram)
              && FlagAmount(r.value.options.jvmArguments[1], "-Xms") == Some(st.ram)
  {
    if st.username == [] || st.ram == 0 then Err(NotConfigured)
    else if st.selectedVersion == [] then Err(NoVersionSelected)
    else
      var options := LaunchOptions(
        st.username, "", "",
        [HeapFlag("-Xmx", st.ram), HeapFlag("-Xms", st.ram)],
        LauncherVersion);
      if IsFabricId(st.selectedVersion) && JarPath(st.selectedVersion) !in files then
        Err(FabricJarMissing(st.selectedVersion + ".jar"))
      else
        HeapFlagRoundTrip("-Xmx", st.ram);
        HeapFlagRoundTrip("-Xms", st.ram);
        Ok(LaunchRequest(st.selectedVersion, options))
  }

  /** Reading the amount back out of a heap flag gives the RAM that was written into it. */
  lemma HeapFlagRoundTrip(flag: string, ram: int)
    ensures FlagAmount(HeapFlag(flag, ram), flag) == Some(ram)
  {
    var arg := HeapFlag(flag, ram);
    assert arg[|flag|..|arg| - 1] == FormatInt(ram);
    ParseFormatRoundTrip(ram);
  }

  /** The exact JVM arguments of a successful launch. */
  lemma LaunchArguments(st: Launcher, files: set<Path>)
    requires PrepareLaunch(st, files).Ok?
    ensures PrepareLaunch(st, files).value.options.jvmArguments ==
              ["-Xmx" + FormatInt(st.ram) + "G", "-Xms" + FormatInt(st.ram) + "G"]
  {
  }
}

=== FILE: launcher_state.dfy ===
/** The in-memory state of one launcher session that the modelled operations read and
    change. Nothing of it is persisted except the marker files in the mods folder. */
module LauncherState {

  /** - `username`, `ram`: the user configuration (`self.username`, `self.ram`);
      - `selectedVersion`: the version id to launch (`self.selected_version`);
      - `fabricVersions`: base version id to installed Fabric version id
        (`self.fabric_versions`), filled only by installs in this session;
      - `modsFolder`: the file names present in the `mods` folder, including the
        `mods_installed_<version>.txt` markers. */
  datatype Launcher = Launcher(
    username: string,
    ram: int,
    selectedVersion: string,
    fabricVersions: map<string, string>,
    modsFolder: set<string>)

  /** The state right after `__init__`: empty name, zero RAM, nothing selected, no Fabric
      install recorded; the mods folder holds whatever an earlier session left there. */
  function Initial(modsFolder: set<string>): (st: Launcher)
    ensures st.username == [] && st.ram == 0 && st.selectedVersion == []
    ensures st.fabricVersions == map[] && st.modsFolder == modsFolder
  {
    Launcher("", 0, "", map[], modsFolder)
  }
}

=== FILE: mods.dfy ===
/** The mod side of a Fabric install: the fixed mod catalogue, the per-version marker file
    that stops the additional-mods questions from being asked twice
    (`post_fabric_install_prompt`), and the rule by which `download_mod_direct` offers
    Fabric API before any other mod. A download is a request in this model; the transfer
    itself, which runs on a background thread, is not. */
module Mods {
  import opened Text
  import opened LauncherState

  /** The four mods the launcher knows how to fetch. */
  datatype Mod = FabricApi | SkinOverrides | Sodium | Lithium {

    /** The `mod_name` passed to `download_mod_direct`. */
    function Name(): string {
      match this
      case FabricApi => "FabricAPI"
      case SkinOverrides => "SkinOverrides"
      case Sodium => "Sodium"
      case Lithium => "Lithium"
    }

    /** The file name the download is saved under: the last path segment of the mod's
        download URL with its percent-escape `%2B` decoded to `+`. */
    function FileName(): string {
      match this
      case FabricApi => "fabric-api-0.118.0+1.21.4.jar"
      case SkinOverrides => "skin_overrides-2.2.3+1.21.4.jar"
      case Sodium => "sodium-fabric-0.6.10+mc1.21.4.jar"
      case Lithium => "lithium-fabric-0.14.8+mc1.21.4.jar"
    }
  }

  /** `mods_installed_<version>.txt`, the marker written once the extra mods were offered. */
  function MarkerFile(version: string): string {
    "mods_installed_" + version + ".txt"
  }

  /** Different versions have different marker files. */
  lemma MarkerFileInjective(v: string, w: string)
    requires MarkerFile(v) == MarkerFile(w)
    ensures v == w
  {
    var p := "mods_installed_";
    assert |v| == |w|;
    assert v == MarkerFile(v)[|p|..|p| + |v|];
  }

  /** The `any("fabric-api" in f.lower() for f in os.listdir(mods_folder))` test. */
  predicate FabricApiPresent(folder: set<string>) {
    exists f :: f in folder && Contains(Lower(f), "fabric-api")
  }

  /** `download_mod_direct` asks whether to fetch Fabric API first exactly when the mod is
      not Fabric API itself (compared case-insensitively) and no file in the mods folder
      mentions `fabric-api`. */
  predicate OffersFabricApi(modName: string, folder: set<string>) {
    Lower(modName) != "fabricapi" && !FabricApiPresent(folder)
  }

  /** The downloads one `download_mod_direct(mod)` call starts, in order, given the mods
      folder listing and the answer to the Fabric API question (unused if not asked). */
  function DownloadMod(mod: Mod, folder: set<string>, acceptApi: bool): (r: seq<Mod>)
    ensures |r| > 0 && r[|r| - 1] == mod
    ensures |r| == 2 <==> OffersFabricApi(mod.Name(), folder) && acceptApi
    ensures |r| == 2 ==> r[0] == FabricApi && mod != FabricApi
    ensures |r| <= 2
  {
    if OffersFabricApi(mod.Name(), folder) && acceptApi then
      assert mod != FabricApi by {
        if mod == FabricApi { FabricApiNameLowers(); }
      }
      [FabricApi, mod]
    else [mod]
  }

  lemma FabricApiNameLowers()
    ensures Lower(FabricApi.Name()) == "fabricapi"
  {
  }

  /** The saved Fabric API jar is recognised by the `fabric-api` test. */
  lemma FabricApiFileMentionsApi()
    ensures Contains(Lower(FabricApi.FileName()), "fabric-api")
  {
    var f := FabricApi.FileName();
    var low := Lower(f);
    assert f[..10] == "fabric-api";
    assert low[0] == 'f' && low[1] == 'a' && low[2] == 'b' && low[3] == 'r' && low[4] == 'i';
    assert low[5] == 'c' && low[6] == '-' && low[7] == 'a' && low[8] == 'p' && low[9] == 'i';
    assert low[..10] == "fabric-api";
  }

  /** Once the Fabric API jar is in the mods folder, no mod triggers the question again. */
  lemma NoOfferOnceFabricApiSaved(modName: string, folder: set<string>)
    requires FabricApi.FileName() in folder
    ensures !OffersFabricApi(modName, folder)
  {
    FabricApiFileMentionsApi();
    assert FabricApiPresent(folder);
  }

  /** Once the listing holds Fabric API's own file, downloading any mod asks nothing and
      starts that mod's download alone. */
  lemma NoApiQuestionOnceListed(mod: Mod, folder: set<string>, acceptApi: bool)
    requires FabricApi.FileName() in folder
    ensures DownloadMod(mod, folder, acceptApi) == [mod]
  {
    NoOfferOnceFabricApiSaved(mod.Name(), folder);
  }

  /** The answers to the questions one `post_fabric_install_prompt` can raise, in the order
      they are asked: the skin mod, Fabric API for the skin mod, the optimization mods, then
      Fabric API for Sodium and for Lithium. An answer to a question that is not asked is
      ignored. */
  datatype Answers = Answers(skin: bool, skinApi: bool, optimization: bool,
                             sodiumApi: bool, lithiumApi: bool)

  /** The mods folder as `os.listdir` shows it to the `download_mod_direct` call for each
      extra mod. Downloads run on background threads and create their file once the server
      answers, so what a call sees depends on timing: anything from the folder before the
      action to that folder plus the files of the downloads already started. */
  datatype Listings = Listings(skin: set<string>, sodium: set<string>, lithium: set<string>)

  /** The listing the call for `mod` sees. */
  function ListingFor(seen: Listings, mod: Mod): set<string> {
    match mod
    case FabricApi => {}
    case SkinOverrides => seen.skin
    case Sodium => seen.sodium
    case Lithium => seen.lithium
  }

  /** The answer given to the Fabric API question of the call for `mod`. */
  function ApiAnswer(ans: Answers, mod: Mod): bool {
    match mod
    case FabricApi => false
    case SkinOverrides => ans.skinApi
    case Sodium => ans.sodiumApi
    case Lithium => ans.lithiumApi
  }

  /** The call for the extra mod `mod` asks about Fabric API and gets a yes. */
  predicate Offered(seen: Listings, ans: Answers, mod: Mod) {
    !FabricApiPresent(ListingFor(seen, mod)) && ApiAnswer(ans, mod)
  }

  /** The mods `post_fabric_install_prompt` itself calls `download_mod_direct` for, in call
      order. */
  function DirectCalls(ans: Answers): (r: seq<Mod>)
    ensures SkinOverrides in r <==> ans.skin
    ensures Sodium in r <==> ans.optimization
    ensures Lithium in r <==> ans.optimization
    ensures FabricApi !in r
  {
    (if ans.skin then [SkinOverrides] else []) + (if ans.optimization then [Sodium, Lithium] else [])
  }

  /** Some call of the prompt asks about Fabric API and gets a yes. */
  predicate RequestsApi(seen: Listings, ans: Answers) {
    || (ans.skin && Offered(seen, ans, SkinOverrides))
    || (ans.optimization && (Offered(seen, ans, Sodium) || Offered(seen, ans, Lithium)))
  }

  /** The requested downloads other than Fabric API, in order. */
  function WithoutApi(s: seq<Mod>): (r: seq<Mod>)
    ensures |r| <= |s|
    ensures FabricApi !in r
    ensures forall m :: m != FabricApi ==> (m in r <==> m in s)
    ensures FabricApi !in s ==> r == s
  {
    if s == [] then []
    else (if s[0] == FabricApi then [] else [s[0]]) + WithoutApi(s[1..])
  }

  lemma {:induction false} WithoutApiAppend(a: seq<Mod>, b: seq<Mod>)
    ensures WithoutApi(a + b) == WithoutApi(a) + WithoutApi(b)
  {
    if a != [] {
      assert (a + b)[1..] == a[1..] + b;
      WithoutApiAppend(a[1..], b);
    } else {
      assert a + b == b;
    }
  }

  /** Every Fabric API request is immediately followed by some other mod. */
  predicate ApiLeadsMod(s: seq<Mod>) {
    forall i :: 0 <= i < |s| && s[i] == FabricApi ==> i + 1 < |s| && s[i + 1] != FabricApi
  }

  /** A Fabric API request stands right before an extra mod exactly when the call for that
      mod asked about Fabric API and got a yes: each Fabric API request belongs to the mod
      after it. */
  predicate ApiMarksOffers(s: seq<Mod>, seen: Listings, ans: Answers) {
    forall i {:trigger s[i]} :: 0 <= i < |s| && s[i] != FabricApi ==>
      ((i > 0 && s[i - 1] == FabricApi) <==> Offered(seen, ans, s[i]))
  }

  lemma ApiLeadsModAppend(a: seq<Mod>, b: seq<Mod>)
    requires ApiLeadsMod(a) && ApiLeadsMod(b)
    ensures ApiLeadsMod(a + b)
  {
    var s := a + b;
    forall i | 0 <= i < |s| && s[i] == FabricApi ensures i + 1 < |s| && s[i + 1] != FabricApi {
      if i < |a| {
        assert a[i] == FabricApi;
      } else {
        assert b[i - |a|] == FabricApi;
      }
    }
  }

  lemma ApiMarksOffersAppend(a: seq<Mod>, b: seq<Mod>, seen: Listings, ans: Answers)
    requires ApiLeadsMod(a)
    requires ApiMarksOffers(a, seen, ans) && ApiMarksOffers(b, seen, ans)
    ensures ApiMarksOffers(a + b, seen, ans)
  {
    var s := a + b;
    forall i | 0 <= i < |s| && s[i] != FabricApi
      ensures (i > 0 && s[i - 1] == FabricApi) <==> Offered(seen, ans, s[i])
    {
      if i < |a| {
        assert s[i] == a[i];
        if i > 0 {
          assert s[i - 1] == a[i - 1];
        }
      } else if i == |a| {
        assert s[i] == b[0];
        if i > 0 {
          assert s[i - 1] == a[|a| - 1];
          assert a[|a| - 1] != FabricApi;
        }
      } else {
        assert s[i] == b[i - |a|];
        assert s[i - 1] == b[i - |a| - 1];
      }
    }
  }

  /** What one `download_mod_direct` call for an extra mod adds to the request list. */
  lemma DownloadExtraMod(mod: Mod, seen: Listings, ans: Answers)
    requires mod != FabricApi
    ensures var r := DownloadMod(mod, ListingFor(seen, mod), ApiAnswer(ans, mod));
            && WithoutApi(r) == [mod]
            && ApiLeadsMod(r)
            && ApiMarksOffers(r, seen, ans)
            && (FabricApi in r <==> Offered(seen, ans, mod))
  {
    var r := DownloadMod(mod, ListingFor(seen, mod), ApiAnswer(ans, mod));
    assert |Lower(mod.Name())| != |"fabricapi"|;
    if |r| == 2 {
      assert r[1..] == [mod];
    }
  }

  /** The downloads the `download_mod_direct` calls of one prompt start, in order, each call
      raising its own Fabric API question against the listing it sees. */
  function PromptDownloads(seen: Listings, ans: Answers): (r: seq<Mod>)
    ensures WithoutApi(r) == DirectCalls(ans)
    ensures FabricApi in r <==> RequestsApi(seen, ans)
    ensures ApiLeadsMod(r)
    ensures ApiMarksOffers(r, seen, ans)
  {
    var skin := if ans.skin then DownloadMod(SkinOverrides, seen.skin, ans.skinApi) else [];
    var optimization :=
      if ans.optimization
      then DownloadMod(Sodium, seen.sodium, ans.sodiumApi) + DownloadMod(Lithium, seen.lithium, ans.lithiumApi)
      else [];
    DownloadsJoin(seen, ans, skin, optimization);
    skin + optimization
  }

  lemma DownloadsJoin(seen: Listings, ans: Answers, skin: seq<Mod>, optimization: seq<Mod>)
    requires skin == if ans.skin then DownloadMod(SkinOverrides, seen.skin, ans.skinApi) else []
    requires optimization ==
      if ans.optimization
      then DownloadMod(Sodium, seen.sodium, ans.sodiumApi) + DownloadMod(Lithium, seen.lithium, ans.lithiumApi)
      else []
    ensures WithoutApi(skin + optimization) == DirectCalls(ans)
    ensures FabricApi in skin + optimization <==> RequestsApi(seen, ans)
    ensures ApiLeadsMod(skin + optimization)
    ensures ApiMarksOffers(skin + optimization, seen, ans)
  {
    DownloadExtraMod(SkinOverrides, seen, ans);
    assert WithoutApi(skin) == if ans.skin then [SkinOverrides] else [];
    assert FabricApi in skin <==> ans.skin && Offered(seen, ans, SkinOverrides);
    OptimizationDownloads(seen, ans, optimization);
    WithoutApiAppend(skin, optimization);
    ApiLeadsModAppend(skin, optimization);
    ApiMarksOffersAppend(skin, optimization, seen, ans);
    assert FabricApi in skin + optimization <==> FabricApi in skin || FabricApi in optimization;
  }

  lemma OptimizationDownloads(seen: Listings, ans: Answers, optimization: seq<Mod>)
    requires optimization ==
      if ans.optimization
      then DownloadMod(Sodium, seen.sodium, ans.sodiumApi) + DownloadMod(Lithium, seen.lithium, ans.lithiumApi)
      else []
    ensures WithoutApi(optimization) == if ans.optimization then [Sodium, Lithium] else []
    ensures FabricApi in optimization <==>
              ans.optimization && (Offered(seen, ans, Sodium) || Offered(seen, ans, Lithium))
    ensures ApiLeadsMod(optimization)
    ensures ApiMarksOffers(optimization, seen, ans)
  {
    if ans.optimization {
      TwoDownloads(Sodium, Lithium, seen, ans);
    }
  }

  lemma TwoDownloads(first: Mod, second: Mod, seen: Listings, ans: Answers)
    requires first != FabricApi && second != FabricApi
    ensures var both := DownloadMod(first, ListingFor(seen, first), ApiAnswer(ans, first))
                        + DownloadMod(second, ListingFor(seen, second), ApiAnswer(ans, second));
            && WithoutApi(both) == [first, second]
            && (FabricApi in both <==> Offered(seen, ans, first) || Offered(seen, ans, second))
            && ApiLeadsMod(both)
            && ApiMarksOffers(both, seen, ans)
  {
    var a := DownloadMod(first, ListingFor(seen, first), ApiAnswer(ans, first));
    var b := DownloadMod(second, ListingFor(seen, second), ApiAnswer(ans, second));
    DownloadExtraMod(first, seen, ans);
    DownloadExtraMod(second, seen, ans);
    WithoutApiAppend(a, b);
    assert [first] + [second] == [first, second];
    ApiLeadsModAppend(a, b);
    ApiMarksOffersAppend(a, b, seen, ans);
    assert FabricApi in a + b <==> FabricApi in a || FabricApi in b;
  }

  /** Only Lithium's Fabric API question gets a yes: Fabric API is requested between Sodium
      and Lithium, not in front of both. */
  lemma MixedAnswersExample()
    ensures PromptDownloads(Listings({}, {}, {}), Answers(false, false, true, false, true))
            == [Sodium, FabricApi, Lithium]
  {
    var seen := Listings({}, {}, {});
    assert !FabricApiPresent({});
    DownloadExtraMod(Sodium, seen, Answers(false, false, true, false, true));
    DownloadExtraMod(Lithium, seen, Answers(false, false, true, false, true));
    assert |Lower(Lithium.Name())| != |"fabricapi"|;
  }

  /** The usual timing of the listings. The skin mod's call and the optimization calls are
      separated by the optimization question, and while it waits for an answer a Fabric API
      download the skin mod's call started has time to create its file. Sodium's call and
      Lithium's call follow each other with only Sodium's own Fabric API question in between,
      and a Fabric API download Sodium's call starts begins after that question, so
      Lithium's listing finds a Fabric API file exactly when Sodium's did. */
  predicate UsualTiming(seen: Listings, ans: Answers) {
    && (ans.skin && Offered(seen, ans, SkinOverrides) ==>
          FabricApi.FileName() in seen.sodium && FabricApi.FileName() in seen.lithium)
    && (ans.optimization ==> (FabricApiPresent(seen.lithium) <==> FabricApiPresent(seen.sodium)))
  }

  /** Usually a yes to the skin mod's Fabric API question settles it: Fabric API is
      requested once, before the skin mod, and the optimization mods ask nothing. */
  lemma SkinApiYesSettlesIt(seen: Listings, ans: Answers)
    requires UsualTiming(seen, ans)
    requires ans.skin && Offered(seen, ans, SkinOverrides)
    ensures PromptDownloads(seen, ans) == [FabricApi] + DirectCalls(ans)
  {
    NoApiQuestionOnceListed(Sodium, seen.sodium, ans.sodiumApi);
    NoApiQuestionOnceListed(Lithium, seen.lithium, ans.lithiumApi);
    assert DownloadMod(SkinOverrides, seen.skin, ans.skinApi) == [FabricApi, SkinOverrides] by {
      assert |Lower(SkinOverrides.Name())| != |"fabricapi"|;
    }
  }

  /** Usually, once Sodium's call has asked about Fabric API and got a yes, Lithium's call
      asks again, and a second yes requests Fabric API a second time. */
  lemma LithiumAsksAgain(seen: Listings, ans: Answers)
    requires UsualTiming(seen, ans)
    requires ans.optimization && Offered(seen, ans, Sodium)
    ensures PromptDownloads(seen, ans) ==
              (if ans.skin then [SkinOverrides] else []) + [FabricApi, Sodium]
              + (if ans.lithiumApi then [FabricApi, Lithium] else [Lithium])
  {
    var skin := if ans.skin then DownloadMod(SkinOverrides, seen.skin, ans.skinApi) else [];
    assert skin == if ans.skin then [SkinOverrides] else [] by {
      if ans.skin && Offered(seen, ans, SkinOverrides) {
        NoOfferOnceFabricApiSaved(Sodium.Name(), seen.sodium);
        assert false;
      }
    }
    assert DownloadMod(Sodium, seen.sodium, ans.sodiumApi) == [FabricApi, Sodium] by {
      assert |Lower(Sodium.Name())| != |"fabricapi"|;
    }
    assert DownloadMod(Lithium, seen.lithium, ans.lithiumApi) ==
             (if ans.lithiumApi then [FabricApi, Lithium] else [Lithium]) by {
      assert |Lower(Lithium.Name())| != |"fabricapi"|;
    }
  }

  /** Into an empty mods folder, with yes to the optimization mods and to both Fabric API
      questions, the usual timing requests Fabric API twice. */
  lemma SodiumThenLithiumAsksTwice()
    ensures UsualTiming(Listings({}, {}, {}), Answers(false, false, true, true, true))
    ensures PromptDownloads(Listings({}, {}, {}), Answers(false, false, true, true, true))
            == [FabricApi, Sodium, FabricApi, Lithium]
  {
    var seen := Listings({}, {}, {});
    var ans := Answers(false, false, true, true, true);
    assert !FabricApiPresent({});
    assert Offered(seen, ans, Sodium) by {
      assert |Lower(Sodium.Name())| != |"fabricapi"|;
    }
    LithiumAsksAgain(seen, ans);
  }

  /** `post_fabric_install_prompt(version)`, given the listing each download call sees: the
      downloads started, in order, and the mods folder with the marker written. With the
      marker already present nothing is asked or done. */
  function PostInstallPrompt(st: Launcher, version: string, ans: Answers, seen: Listings)
    : (r: (Launcher, seq<Mod>))
    ensures MarkerFile(version) in r.0.modsFolder
    ensures MarkerFile(version) in st.modsFolder ==> r == (st, [])
    ensures r.0.modsFolder == st.modsFolder + {MarkerFile(version)}
    ensures r.0 == st.(modsFolder := r.0.modsFolder)
    ensures WithoutApi(r.1) == if MarkerFile(version) in st.modsFolder then [] else DirectCalls(ans)
    ensures FabricApi in r.1 <==> MarkerFile(version) !in st.modsFolder && RequestsApi(seen, ans)
    ensures ApiLeadsMod(r.1)
    ensures ApiMarksOffers(r.1, seen, ans)
  {
    if MarkerFile(version) in st.modsFolder then (st, [])
    else (st.(modsFolder := st.modsFolder + {MarkerFile(version)}), PromptDownloads(seen, ans))
  }

  /** When no call sees a Fabric API file and every Fabric API question is answered yes,
      Fabric API is requested right before each extra mod, once per mod. */
  lemma ApiBeforeEveryExtraMod(st: Launcher, version: string, ans: Answers, seen: Listings)
    requires MarkerFile(version) !in st.modsFolder
    requires !FabricApiPresent(seen.skin) && !FabricApiPresent(seen.sodium)
    requires !FabricApiPresent(seen.lithium)
    requires ans.skinApi && ans.sodiumApi && ans.lithiumApi
    ensures var r := PostInstallPrompt(st, version, ans, seen).1;
            var calls := DirectCalls(ans);
            && |r| == 2 * |calls|
            && forall k :: 0 <= k < |calls| ==> r[2 * k] == FabricApi && r[2 * k + 1] == calls[k]
  {
    assert DownloadMod(SkinOverrides, seen.skin, true) == [FabricApi, SkinOverrides] by {
      assert |Lower(SkinOverrides.Name())| != |"fabricapi"|;
    }
    assert DownloadMod(Sodium, seen.sodium, true) == [FabricApi, Sodium] by {
      assert |Lower(Sodium.Name())| != |"fabricapi"|;
    }
    assert DownloadMod(Lithium, seen.lithium, true) == [FabricApi, Lithium] by {
      assert |Lower(Lithium.Name())| != |"fabricapi"|;
    }
    var skin := if ans.skin then [FabricApi, SkinOverrides] else [];
    var optimization := if ans.optimization then [FabricApi, Sodium] + [FabricApi, Lithium] else [];
    assert PostInstallPrompt(st, version, ans, seen).1 == PromptDownloads(seen, ans) == skin + optimization;
  }

  /** A file never leaves the folder during a prompt, so once a Fabric API file was there
      before it, the prompt requests exactly the mods it calls for, and no Fabric API. */
  lemma NoApiRequestWhenPresent(st: Launcher, version: string, ans: Answers, seen: Listings)
    requires FabricApiPresent(st.modsFolder)
    requires st.modsFolder <= seen.skin && st.modsFolder <= seen.sodium
    requires st.modsFolder <= seen.lithium
    ensures PostInstallPrompt(st, version, ans, seen).1 ==
              if MarkerFile(version) in st.modsFolder then [] else DirectCalls(ans)
  {
    var f :| f in st.modsFolder && Contains(Lower(f), "fabric-api");
    assert FabricApiPresent(seen.skin) && FabricApiPresent(seen.sodium);
    assert FabricApiPresent(seen.lithium);
    var r := PostInstallPrompt(st, version, ans, seen).1;
    assert FabricApi !in r;
  }

  /** The marker suppresses the questions: a second prompt for the same version asks nothing
      and changes nothing, whatever the answers and listings. */
  lemma PromptOnlyOnce(st: Launcher, version: string, first: Answers, second: Answers,
                       seen: Listings, later: Listings)
    ensures var after := PostInstallPrompt(st, version, first, seen).0;
            PostInstallPrompt(after, version, second, later) == (after, [])
  {
  }

  /** Each version has its own marker: prompting for one version leaves another version's
      prompt as it was. */
  lemma MarkersAreIndependent(st: Launcher, v: string, w: string, ans: Answers, seen: Listings)
    requires v != w
    ensures var after := PostInstallPrompt(st, v, ans, seen).0;
            MarkerFile(w) in after.modsFolder <==> MarkerFile(w) in st.modsFolder
  {
    if MarkerFile(w) == MarkerFile(v) {
      MarkerFileInjective(v, w);
    }
  }
}

=== FILE: results.dfy ===
/** Failure-carrying values used across the launcher model: an optional value and a
    value-or-error result. */
module Results {

  /** A value that may be absent (a Python `None` or a raised `ValueError`). */
  datatype Option<+T> = None | Some(value: T)

  /** Either a successful value or the error a dialog would have reported. */
  datatype Result<+T, +E> = Ok(value: T) | Err(error: E)
}

=== FILE: scenarios.dfy ===
/** Properties that follow one session through several launcher actions: configuring, picking
    a version, installing Fabric and pressing the launch button. */
module Scenarios {
  import opened Results
  import opened Text
  import opened LauncherState
  import opened Settings
  import opened Launch
  import opened Mods
  import opened Versions

  /** A fresh session cannot launch: the configuration check fails first, even before the
      missing selection is noticed. */
  lemma FreshSessionCannotLaunch(folder: set<string>, files: set<Path>)
    ensures PrepareLaunch(Initial(folder), files) == Err(NotConfigured)
  {
  }

  /** A negative RAM amount passes the configuration check: only 0 is refused. */
  lemma NegativeRamPassesConfigurationCheck(st: Launcher, files: set<Path>)
    requires st.username != [] && st.ram < 0
    ensures PrepareLaunch(st, files) != Err(NotConfigured)
  {
  }

  /** After a successful "Guardar" with a non-zero amount and a plain version selected, the
      launch goes ahead with the stripped user name and the saved amount in both heap flags. */
  lemma SaveThenLaunch(st: Launcher, userText: string, ramText: string, files: set<Path>)
    requires Save(st, userText, ramText).1.None?
    requires Save(st, userText, ramText).0.ram != 0
    requires st.selectedVersion != [] && !IsFabricId(st.selectedVersion)
    ensures var saved := Save(st, userText, ramText).0;
            && PrepareLaunch(saved, files).Ok?
            && PrepareLaunch(saved, files).value.options.username == Trim(userText)
            && FlagAmount(PrepareLaunch(saved, files).value.options.jvmArguments[0], "-Xmx")
               == ParseInt(Trim(ramText))
  {
    var saved := Save(st, userText, ramText).0;
    assert saved.username == Trim(userText);
    assert saved.selectedVersion == st.selectedVersion;
  }

  /** A failed "Guardar" leaves the launch outcome exactly as it was. */
  lemma FailedSaveKeepsLaunchOutcome(st: Launcher, userText: string, ramText: string, files: set<Path>)
    requires Save(st, userText, ramText).1.Some?
    ensures PrepareLaunch(Save(st, userText, ramText).0, files) == PrepareLaunch(st, files)
  {
  }

  /** Picking a listed version without Fabric never runs into the jar check: once configured,
      the launch request is built for exactly that id, whatever is on disk. */
  lemma ListedPlainSelectionLaunches(st: Launcher, installed: seq<string>, v: string,
                                      useFabric: bool, ans: Answers, seen: Listings,
                                      files: set<Path>)
    requires v in VisibleVersions(installed) && v != []
    requires st.username != [] && st.ram != 0
    requires !(useFabric && v in st.fabricVersions)
    ensures var chosen := Select(st, v, useFabric, ans, seen).0;
            PrepareLaunch(chosen, files).Ok? && PrepareLaunch(chosen, files).value.version == v
  {
    ListedIsNotFabricId(v);
  }

  /** Installing Fabric for `v` and then selecting it with the box ticked chooses the Fabric
      id, and launching it then depends exactly on that id's jar being on disk. */
  lemma FabricSelectionNeedsJar(st: Launcher, v: string, ans: Answers, seen: Listings,
                                 files: set<Path>)
    requires st.username != [] && st.ram != 0
    ensures var chosen := Select(RecordFabric(st, v), v, true, ans, seen).0;
            && chosen.selectedVersion == FabricVersionId(v)
            && (PrepareLaunch(chosen, files).Ok? <==> JarPath(FabricVersionId(v)) in files)
  {
    var chosen := Select(RecordFabric(st, v), v, true, ans, seen).0;
    assert chosen.selectedVersion == FabricVersionId(v);
    FabricVersionIdShape(v);
  }

  /** Selecting a Fabric version a second time asks no more questions about extra mods. */
  lemma SecondFabricSelectionAsksNothing(st: Launcher, v: string, ans: Answers, seen: Listings,
                                          later: Answers, laterSeen: Listings)
    requires v in st.fabricVersions
    ensures var first := Select(st, v, true, ans, seen).0;
            Select(first, v, true, later, laterSeen).1 == []
  {
    var first := Select(st, v, true, ans, seen).0;
    assert MarkerFile(v) in first.modsFolder;
  }

  /** When the Fabric API download the dialog starts unasked has not yet created its file
      as the skin mod's download lists the folder, a yes to the skin mod's Fabric API
      question requests Fabric API a second time: into an empty mods folder, Fabric API,
      Fabric API, then the skin mod. */
  lemma DialogCanRequestFabricApiTwice(st: Launcher, text: string, seen: Listings)
    requires st.modsFolder == {}
    requires !AllSpace(text)
    requires !FabricApiPresent(seen.skin)
    ensures InstallFabricFromPrompt(st, text, true, Answers(true, true, false, true, true), seen).1
            == Ok([FabricApi, FabricApi, SkinOverrides])
  {
    var ans := Answers(true, true, false, true, true);
    var ver := Trim(text);
    var recorded := RecordFabric(st, ver);
    var extra := PostInstallPrompt(recorded, ver, ans, seen).1;
    var skin := DownloadMod(SkinOverrides, seen.skin, true);
    assert skin == [FabricApi, SkinOverrides] by {
      assert |Lower(SkinOverrides.Name())| != |"fabricapi"|;
    }
    assert extra == PromptDownloads(seen, ans) == skin + [];
    DialogDownloads(st, text, ans, seen);
    assert [FabricApi] + extra == [FabricApi, FabricApi, SkinOverrides] by {
      assert extra[0] == FabricApi && extra[1] == SkinOverrides && |extra| == 2;
    }
  }

  /** Usually that first download has created its file (even a partly written one) before
      the skin mod's download lists the folder, since the skin mod question comes in between,
      and Fabric API is requested once. */
  lemma DialogRequestsFabricApiOnce(st: Launcher, text: string, seen: Listings)
    requires st.modsFolder == {}
    requires !AllSpace(text)
    requires FabricApi.FileName() in seen.skin
    ensures InstallFabricFromPrompt(st, text, true, Answers(true, true, false, true, true), seen).1
            == Ok([FabricApi, SkinOverrides])
  {
    var ans := Answers(true, true, false, true, true);
    var ver := Trim(text);
    var recorded := RecordFabric(st, ver);
    var extra := PostInstallPrompt(recorded, ver, ans, seen).1;
    var skin := DownloadMod(SkinOverrides, seen.skin, true);
    NoApiQuestionOnceListed(SkinOverrides, seen.skin, true);
    assert extra == PromptDownloads(seen, ans) == skin + [];
    DialogDownloads(st, text, ans, seen);
    assert [FabricApi] + extra == [FabricApi, SkinOverrides];
  }
}

=== FILE: settings.dfy ===
/** The "Guardar" action of the configuration dialog (`configurar_usuario`): both fields
    are stripped, both must be non-empty, and the RAM text must be a Python integer; only
    then are the user name and the RAM amount stored, together. */
module Settings {
  import opened Results
  import opened Text
  import opened LauncherState

  /** The two error dialogs `guardar` can show. */
  datatype SaveError =
    | EmptyField      // "Debes llenar todos los campos"
    | RamNotInteger   // "La RAM debe ser un número entero"

  /** `guardar` on the texts typed into the user and RAM entries: the new state and
      `None` on success ("Configuración guardada"), or the unchanged state and the error
      shown. */
  function Save(st: Launcher, userText: string, ramText: string): (r: (Launcher, Option<SaveError>))
    ensures r.1 == Some(EmptyField) <==> AllSpace(userText) || AllSpace(ramText)
    ensures r.1 == Some(RamNotInteger) <==>
              !AllSpace(userText) && !AllSpace(ramText) && ParseInt(Trim(ramText)).None?
    ensures r.1.Some? ==> r.0 == st
    ensures r.1.None? ==>
              && r.0 == st.(username := Trim(userText), ram := ParseInt(Trim(ramText)).value)
              && r.0.username != [] && !IsSpace(r.0.username[0])
              && !IsSpace(r.0.username[|r.0.username| - 1])
  {
    var username := Trim(userText);
    var ramStr := Trim(ramText);
    if username == [] || ramStr == [] then
      (st, Some(EmptyField))
    else
      match ParseInt(ramStr)
      case None => (st, Some(RamNotInteger))
      case Some(ram) => (st.(username := username, ram := ram), None)
  }

  /** Typing the decimal text of `n` (with any blanks before and after it) stores exactly
      `n`. */
  lemma SaveFormattedRam(st: Launcher, userText: string, n: int, lpad: string, rpad: string)
    requires !AllSpace(userText)
    requires AllSpace(lpad) && AllSpace(rpad)
    ensures Save(st, userText, lpad + FormatInt(n) + rpad).1.None?
    ensures Save(st, userText, lpad + FormatInt(n) + rpad).0.ram == n
  {
    var text := FormatInt(n);
    var typed := lpad + text + rpad;
    assert typed[..|lpad|] == lpad;
    assert typed[|lpad| + |text|..] == rpad;
    assert typed[|lpad|..|lpad| + |text|] == text;
    TrimIsUnique(typed, |lpad|, |lpad| + |text|);
    ParseFormatRoundTrip(n);
  }

  /** Pressing "Guardar" twice with the same texts is the same as pressing it once. */
  lemma SaveIdempotent(st: Launcher, userText: string, ramText: string)
    ensures Save(Save(st, userText, ramText).0, userText, ramText) == Save(st, userText, ramText)
  {
  }
}

=== FILE: text.dfy ===
/** The string operations the launcher applies to user input and file names, restricted to
    ASCII: Python's `str.strip()`, `str.lower()`, `in` on strings, `str.startswith`, the
    decimal `int()` constructor and `str()` of an integer. */
module Text {
  import opened Results

  // ---------------------------------------------------------------------------------------
  // Whitespace and strip()
  // ---------------------------------------------------------------------------------------

  /** The ASCII characters for which Python's `str.isspace()` holds: tab, line feed,
      vertical tab, form feed, carriage return, the four separators 0x1C-0x1F and space. */
  predicate IsSpace(c: char) {
    var n := c as int;
    n == 32 || 9 <= n <= 13 || 28 <= n <= 31
  }

  predicate AllSpace(s: string) {
    forall k :: 0 <= k < |s| ==> IsSpace(s[k])
  }

  /** Index of the first non-whitespace character of `s` (or `|s|` if there is none). */
  function LeadingSpaces(s: string): (n: nat)
    ensures n <= |s|
    ensures AllSpace(s[..n])
    ensures n == |s| || !IsSpace(s[n])
  {
    if |s| > 0 && IsSpace(s[0]) then
      var n := 1 + LeadingSpaces(s[1..]);
      assert s[..n] == [s[0]] + s[1..][..n - 1];
      n
    else 0
  }

  /** Length of `s` once trailing whitespace is removed. */
  function TrailingCut(s: string): (e: nat)
    ensures e <= |s|
    ensures AllSpace(s[e..])
    ensures e == 0 || !IsSpace(s[e - 1])
  {
    if |s| > 0 && IsSpace(s[|s| - 1]) then
      var e := TrailingCut(s[..|s| - 1]);
      assert s[e..] == s[..|s| - 1][e..] + [s[|s| - 1]];
      e
    else |s|
  }

  /** Python's `s.strip()` with no argument, on ASCII whitespace. */
  function Trim(s: string): (r: string)
    ensures |r| <= |s|
    ensures r == [] <==> AllSpace(s)
    ensures r != [] ==> !IsSpace(r[0]) && !IsSpace(r[|r| - 1])
  {
    var b := LeadingSpaces(s);
    var rest := s[b..];
    var e := TrailingCut(rest);
    assert b == |s| ==> s == s[..b];
    rest[..e]
  }

  /** Trim(s) is the one slice of `s` that has only whitespace around it and no whitespace
      at its ends: any such slice `s[i..j]` equals Trim(s). */
  lemma {:induction false} TrimIsUnique(s: string, i: nat, j: nat)
    requires i <= j <= |s|
    requires AllSpace(s[..i]) && AllSpace(s[j..])
    requires i == j || (!IsSpace(s[i]) && !IsSpace(s[j - 1]))
    ensures Trim(s) == s[i..j]
  {
    if i == j {
      assert forall k :: 0 <= k < |s| ==> IsSpace(s[k]) by {
        forall k | 0 <= k < |s| ensures IsSpace(s[k]) {
          if k < i { assert s[k] == s[..i][k]; } else { assert s[k] == s[j..][k - j]; }
        }
      }
      assert Trim(s) == [];
    } else {
      var b := LeadingSpaces(s);
      assert b == i;
      var rest := s[i..];
      var e := TrailingCut(rest);
      assert e == j - i;
      assert rest[..e] == s[i..j];
    }
  }

  /** strip() is idempotent. */
  lemma TrimIdempotent(s: string)
    ensures Trim(Trim(s)) == Trim(s)
  {
    var r := Trim(s);
    TrimIsUnique(r, 0, |r|);
  }

  // ---------------------------------------------------------------------------------------
  // lower(), startswith() and `in`
  // ---------------------------------------------------------------------------------------

  predicate IsUpper(c: char) {
    'A' <= c <= 'Z'
  }

  function LowerChar(c: char): char {
    if IsUpper(c) then (c as int + 32) as char else c
  }

  /** Python's `s.lower()` on ASCII letters; every other character is kept. */
  function Lower(s: string): (r: string)
    ensures |r| == |s|
    ensures forall k :: 0 <= k < |s| ==> r[k] == LowerChar(s[k])
  {
    seq(|s|, k requires 0 <= k < |s| => LowerChar(s[k]))
  }

  /** Lowering twice is lowering once, and lowered text holds no upper-case letter. */
  lemma LowerIdempotent(s: string)
    ensures Lower(Lower(s)) == Lower(s)
    ensures forall k :: 0 <= k < |s| ==> !IsUpper(Lower(s)[k])
  {
  }

  /** Python's `s.startswith(p)`. */
  predicate StartsWith(s: string, p: string) {
    |p| <= |s| && s[..|p|] == p
  }

  /** Python's `p in s` for strings: `p` occurs somewhere in `s`. */
  predicate Contains(s: string, p: string)
    decreases |s|
  {
    StartsWith(s, p) || (|s| > 0 && Contains(s[1..], p))
  }

  /** `p` occurs in `s` starting at offset `i`. */
  predicate OccursAt(s: string, p: string, i: nat) {
    i + |p| <= |s| && s[i..i + |p|] == p
  }

  /** `p in s` holds exactly when `p` occurs at some offset of `s`. */
  lemma {:induction false} ContainsAt(s: string, p: string)
    ensures Contains(s, p) <==> exists i: nat :: OccursAt(s, p, i)
    decreases |s|
  {
    if StartsWith(s, p) {
      assert OccursAt(s, p, 0);
    }
    if |s| > 0 {
      ContainsAt(s[1..], p);
      if Contains(s[1..], p) {
        var i: nat :| OccursAt(s[1..], p, i);
        assert OccursAt(s, p, i + 1);
      }
      if i: nat :| OccursAt(s, p, i) {
        if i > 0 {
          assert OccursAt(s[1..], p, i - 1);
        }
      }
    } else {
      if i: nat :| OccursAt(s, p, i) {
        assert OccursAt(s, p, 0);
      }
    }
  }

  /** A string that starts with `p` contains `p`, and so does one that starts with any
      extension of `p`. */
  lemma StartsWithExtension(s: string, p: string, q: string)
    requires StartsWith(s, p + q)
    ensures StartsWith(s, p)
    ensures Contains(s, p)
  {
    assert s[..|p|] == (p + q)[..|p|];
  }

  // ---------------------------------------------------------------------------------------
  // int() and str() on decimal integers
  // ---------------------------------------------------------------------------------------

  predicate IsDigit(c: char) {
    '0' <= c <= '9'
  }

  predicate AllDigits(s: string) {
    forall k :: 0 <= k < |s| ==> IsDigit(s[k])
  }

  function DigitValue(c: char): (d: nat)
    requires IsDigit(c)
    ensures d < 10
  {
    c as int - '0' as int
  }

  function DigitChar(d: nat): (c: char)
    requires d < 10
    ensures IsDigit(c) && DigitValue(c) == d
  {
    ('0' as int + d) as char
  }

  /** Digits in which single underscores may separate two digits, as Python's `int()`
      accepts them: `1_000` but not `_1`, `1_` or `1__0`. */
  predicate IsDigitRun(s: string) {
    && |s| > 0
    && IsDigit(s[0])
    && forall k :: 0 <= k < |s| ==> RunCharAt(s, k)
  }

  /** Position `k` of a digit run holds a digit, or an underscore followed by a digit. */
  predicate RunCharAt(s: string, k: nat)
    requires k < |s|
  {
    IsDigit(s[k]) || (s[k] == '_' && k + 1 < |s| && IsDigit(s[k + 1]))
  }

  /** A digit run ends in a digit and holds nothing but digits and underscores. */
  lemma DigitRunShape(s: string)
    requires IsDigitRun(s)
    ensures IsDigit(s[|s| - 1])
    ensures forall k :: 0 <= k < |s| ==> IsDigit(s[k]) || s[k] == '_'
  {
    assert RunCharAt(s, |s| - 1);
    forall k | 0 <= k < |s| ensures IsDigit(s[k]) || s[k] == '_' {
      assert RunCharAt(s, k);
    }
  }

  function DropUnderscores(s: string): (r: string)
    ensures |r| <= |s|
    ensures AllDigits(s) ==> r == s
  {
    if s == [] then []
    else if s[0] == '_' then DropUnderscores(s[1..])
    else [s[0]] + DropUnderscores(s[1..])
  }

  lemma {:induction false} DropUnderscoresOfRun(s: string)
    requires forall k :: 0 <= k < |s| ==> IsDigit(s[k]) || s[k] == '_'
    ensures AllDigits(DropUnderscores(s))
  {
    if s != [] {
      DropUnderscoresOfRun(s[1..]);
    }
  }

  /** The number a string of decimal digits denotes, most significant digit first. */
  function DecimalValue(s: string): nat
    requires AllDigits(s)
  {
    if s == [] then 0 else 10 * DecimalValue(s[..|s| - 1]) + DigitValue(s[|s| - 1])
  }

  /** The magnitude part of Python's `int()`: a digit run, or nothing. */
  function ParseMagnitude(s: string): (r: Option<nat>)
    ensures r.Some? <==> IsDigitRun(s)
    ensures r.Some? ==> IsDigit(s[|s| - 1]) && forall k :: 0 <= k < |s| ==> IsDigit(s[k]) || s[k] == '_'
  {
    if IsDigitRun(s) then
      DigitRunShape(s);
      DropUnderscoresOfRun(s);
      Some(DecimalValue(DropUnderscores(s)))
    else None
  }

  /** Python's `int(s)` on an already stripped string: an optional `+` or `-` sign followed
      by a digit run. `None` stands for the `ValueError` Python raises. */
  function ParseInt(s: string): (r: Option<int>)
    ensures r.Some? <==> IsDigitRun(s) || (|s| > 0 && (s[0] == '+' || s[0] == '-') && IsDigitRun(s[1..]))
    ensures r.Some? ==> |s| > 0 && IsDigit(s[|s| - 1])
    ensures r.Some? ==> forall k :: 0 <= k < |s| ==> !IsSpace(s[k])
    ensures r.Some? && r.value < 0 ==> s[0] == '-'
  {
    if |s| > 0 && (s[0] == '+' || s[0] == '-') then
      match ParseMagnitude(s[1..])
      case None => None
      case Some(m) =>
        assert s[|s| - 1] == s[1..][|s| - 2];
        assert forall k :: 1 <= k < |s| ==> s[k] == s[1..][k - 1];
        var v: int := if s[0] == '-' then -(m as int) else m;
        Some(v)
    else
      ParseMagnitude(s)
  }

  /** Python's `str(n)` for a natural number: its decimal digits, no leading zeros. */
  function FormatNat(n: nat): (s: string)
    ensures |s| > 0 && AllDigits(s)
    ensures n > 0 ==> s[0] != '0'
  {
    if n < 10 then [DigitChar(n)] else FormatNat(n / 10) + [DigitChar(n % 10)]
  }

  /** Python's `str(n)` (and `f"{n}"`) for any integer. */
  function FormatInt(n: int): (s: string)
    ensures |s| > 0
    ensures forall k :: 0 <= k < |s| ==> !IsSpace(s[k])
    ensures IsCanonical(s)
    ensures n < 0 <==> s[0] == '-'
  {
    if n < 0 then "-" + FormatNat(-n) else FormatNat(n)
  }

  lemma {:induction false} DecimalValueOfFormat(n: nat)
    ensures DecimalValue(FormatNat(n)) == n
  {
    if n >= 10 {
      DecimalValueOfFormat(n / 10);
      var s := FormatNat(n);
      assert s[..|s| - 1] == FormatNat(n / 10);
    }
  }

  /** `int(str(n)) == n`: the decimal text of every integer parses back to it. */
  lemma ParseFormatRoundTrip(n: int)
    ensures ParseInt(FormatInt(n)) == Some(n)
  {
    var m: nat := if n < 0 then -n else n;
    var digits := FormatNat(m);
    DecimalValueOfFormat(m);
    assert IsDigitRun(digits);
    if n < 0 {
      assert FormatInt(n)[1..] == digits;
    }
  }

  /** A sign in front of a digit run: `+` keeps its value and `-` negates it, so
      `int("+d") == int(d)` and `int("-d") == -int(d)`. */
  lemma ParseIntSign(d: string)
    requires IsDigitRun(d)
    ensures ParseInt(d).Some?
    ensures ParseInt("+" + d) == ParseInt(d)
    ensures ParseInt("-" + d) == Some(-ParseInt(d).value)
  {
    assert ("+" + d)[1..] == d;
    assert ("-" + d)[1..] == d;
  }

  /** A leading zero does not change the value: `int("0" + d) == int(d)`. */
  lemma ParseIntLeadingZero(d: string)
    requires IsDigitRun(d)
    ensures ParseInt("0" + d).Some?
    ensures ParseInt("0" + d) == ParseInt(d)
  {
    var z := "0" + d;
    forall k | 0 <= k < |z| ensures RunCharAt(z, k) {
      if k > 0 {
        assert RunCharAt(d, k - 1);
      }
    }
    assert z[1..] == d;
    assert DropUnderscores(z) == "0" + DropUnderscores(d);
    DigitRunShape(d);
    DropUnderscoresOfRun(d);
    DecimalValueLeadingZero(DropUnderscores(d));
  }

  lemma {:induction false} DecimalValueLeadingZero(t: string)
    requires AllDigits(t)
    ensures AllDigits("0" + t)
    ensures DecimalValue("0" + t) == DecimalValue(t)
  {
    if t != [] {
      var z := "0" + t;
      assert z[..|z| - 1] == "0" + t[..|t| - 1];
      DecimalValueLeadingZero(t[..|t| - 1]);
    }
  }

  /** A single underscore between two digit runs is ignored: `int(a + "_" + b)` is
      `int(a + b)`. */
  lemma ParseIntUnderscore(a: string, b: string)
    requires IsDigitRun(a) && IsDigitRun(b)
    ensures ParseInt(a + b).Some?
    ensures ParseInt(a + "_" + b) == ParseInt(a + b)
  {
    DigitRunsJoin(a, b);
    var joined := a + b;
    var split := a + "_" + b;
    assert joined[0] == a[0] && split[0] == a[0];
    assert DropUnderscores(split) == DropUnderscores(joined) by {
      DropUnderscoresAppend(a, b);
      DropUnderscoresAppend(a + "_", b);
      DropUnderscoresAppend(a, "_");
    }
  }

  /** Two digit runs joined directly or by one underscore form a digit run. */
  lemma DigitRunsJoin(a: string, b: string)
    requires IsDigitRun(a) && IsDigitRun(b)
    ensures IsDigitRun(a + b)
    ensures IsDigitRun(a + "_" + b)
  {
    var joined := a + b;
    forall k | 0 <= k < |joined| ensures RunCharAt(joined, k) {
      if k < |a| {
        assert RunCharAt(a, k);
      } else {
        assert RunCharAt(b, k - |a|);
      }
    }
    var split := a + "_" + b;
    forall k | 0 <= k < |split| ensures RunCharAt(split, k) {
      if k < |a| {
        assert RunCharAt(a, k);
      } else if k > |a| {
        assert RunCharAt(b, k - |a| - 1);
      }
    }
  }

  lemma {:induction false} DropUnderscoresAppend(x: string, y: string)
    ensures DropUnderscores(x + y) == DropUnderscores(x) + DropUnderscores(y)
  {
    if x != [] {
      assert (x + y)[1..] == x[1..] + y;
      DropUnderscoresAppend(x[1..], y);
    } else {
      assert x + y == y;
    }
  }

  /** Natural-number text as `str()` writes it: digits, with no leading zero unless the text
      is `0` itself. */
  predicate IsNatText(d: string) {
    |d| > 0 && AllDigits(d) && (d[0] == '0' ==> |d| == 1)
  }

  /** Integer text as `str()` writes it: natural-number text, or `-` and a non-zero one. */
  predicate IsCanonical(s: string) {
    || IsNatText(s)
    || (|s| > 1 && s[0] == '-' && IsNatText(s[1..]) && s[1] != '0')
  }

  /** Text without a leading zero denotes a positive number. */
  lemma {:induction false} LeadingDigitPositive(d: string)
    requires IsNatText(d) && d[0] != '0'
    ensures DecimalValue(d) > 0
  {
    if |d| > 1 {
      LeadingDigitPositive(d[..|d| - 1]);
    }
  }

  lemma {:induction false} FormatDecimalValue(d: string)
    requires IsNatText(d)
    ensures FormatNat(DecimalValue(d)) == d
  {
    if |d| > 1 {
      var p := d[..|d| - 1];
      LeadingDigitPositive(p);
      FormatDecimalValue(p);
      assert d == p + [d[|d| - 1]];
    }
  }

  /** `str(int(s)) == s` for canonical integer text: together with `ParseFormatRoundTrip`,
      `str()` and `int()` are inverse bijections between the integers and the canonical
      texts. */
  lemma FormatParseRoundTrip(s: string)
    requires IsCanonical(s)
    ensures ParseInt(s).Some?
    ensures FormatInt(ParseInt(s).value) == s
  {
    if IsNatText(s) {
      assert IsDigitRun(s) by {
        forall k | 0 <= k < |s| ensures RunCharAt(s, k) { }
      }
      FormatDecimalValue(s);
    } else {
      var d := s[1..];
      assert IsDigitRun(d) by {
        forall k | 0 <= k < |d| ensures RunCharAt(d, k) { }
      }
      LeadingDigitPositive(d);
      FormatDecimalValue(d);
      assert s == "-" + d;
    }
  }

  /** `int()` on the forms the configuration dialog may receive: a sign, leading zeros and
      an underscore are accepted. */
  lemma ParseIntAcceptedExamples()
    ensures ParseInt("+5") == Some(5)
    ensures ParseInt("007") == Some(7)
    ensures ParseInt("1_000") == Some(1000)
    ensures ParseInt("-12") == Some(-12)
  {
    PlusFive();
    ZeroZeroSeven();
    OneThousand();
    MinusTwelve();
  }

  lemma PlusFive()
    ensures ParseInt("+5") == Some(5)
  {
    ParseFormatRoundTrip(5);
    assert FormatInt(5) == "5";
    ParseIntSign("5");
    assert "+" + "5" == "+5";
  }

  lemma ZeroZeroSeven()
    ensures ParseInt("007") == Some(7)
  {
    ParseFormatRoundTrip(7);
    assert FormatInt(7) == "7";
    ParseIntLeadingZero("7");
    assert "0" + "7" == "07";
    ParseIntLeadingZero("07");
    assert "0" + "07" == "007";
  }

  lemma OneThousand()
    ensures ParseInt("1_000") == Some(1000)
  {
    ParseFormatRoundTrip(1);
    assert FormatInt(1) == "1";
    ParseFormatRoundTrip(0);
    assert FormatInt(0) == "0";
    ParseIntLeadingZero("0");
    assert "0" + "0" == "00";
    ParseIntLeadingZero("00");
    assert "0" + "00" == "000";
    ParseIntUnderscore("1", "000");
    assert "1" + "_" + "000" == "1_000";
    ParseFormatRoundTrip(1000);
    assert FormatNat(1000) == FormatNat(100) + "0";
    assert FormatNat(100) == FormatNat(10) + "0";
    assert FormatNat(10) == "10";
    assert FormatInt(1000) == "1000" == "1" + "000";
  }

  lemma MinusTwelve()
    ensures ParseInt("-12") == Some(-12)
  {
    ParseFormatRoundTrip(-12);
    assert FormatNat(12) == FormatNat(1) + "2" == "12";
    assert FormatInt(-12) == "-12";
  }

  /** ... and these are refused: doubled, leading or trailing underscores, a lone sign, the
      empty text and a unit after the number. */
  lemma ParseIntRefusedExamples()
    ensures ParseInt("1__0") == None && ParseInt("_1") == None && ParseInt("1_") == None
    ensures ParseInt("") == None && ParseInt("-") == None && ParseInt("4 GB") == None
  {
    assert !RunCharAt("1__0", 1);
    assert !RunCharAt("1_", 1);
    assert !RunCharAt("4 GB", 1);
  }
}

=== FILE: versions.dfy ===
/** Version bookkeeping: the session map from a base version to its Fabric version id, the
    version list shown by `mostrar_versiones`, and the checkbox and "Seleccionar" actions of
    each row, plus the stand-alone "Instalar Fabric" dialog (`instalar_fabric_prompt`). The
    installs themselves are calls into the external installer library; their success or
    failure is an input. */
module Versions {
  import opened Results
  import opened Text
  import opened LauncherState
  import opened Mods
  import Launch

  /** `default_fab`, the Fabric loader version every install uses. */
  const FabricLoaderVersion: string := "0.16.10"

  /** The marker that hides an id from the version list. */
  const FabricMarker: string := "fabric-loader"

  /** `f"fabric-loader-{default_fab}-{ver}"`. */
  function FabricVersionId(base: string): string {
    Launch.FabricPrefix + FabricLoaderVersion + "-" + base
  }

  /** Distinct base versions get distinct Fabric ids. */
  lemma FabricVersionIdInjective(v: string, w: string)
    requires FabricVersionId(v) == FabricVersionId(w)
    ensures v == w
  {
    var n := |Launch.FabricPrefix + FabricLoaderVersion + "-"|;
    assert v == FabricVersionId(v)[n..];
  }

  /** A Fabric id is recognised as such at launch, and is hidden from the version list. */
  lemma FabricVersionIdShape(base: string)
    ensures Launch.IsFabricId(FabricVersionId(base))
    ensures Contains(FabricVersionId(base), FabricMarker)
  {
    var id := FabricVersionId(base);
    StartsWithExtension(id, Launch.FabricPrefix, FabricLoaderVersion + "-" + base);
    StartsWithExtension(id, FabricMarker, "-");
  }

  /** A version id without `fabric-loader` in it never passes the launch-time Fabric test. */
  lemma ListedIsNotFabricId(id: string)
    requires !Contains(id, FabricMarker)
    ensures !Launch.IsFabricId(id)
  {
    if Launch.IsFabricId(id) {
      StartsWithExtension(id, FabricMarker, "-");
    }
  }

  /** Records a successful Fabric install of `base` (`self.fabric_versions[ver] = fab_id`). */
  function RecordFabric(st: Launcher, base: string): (r: Launcher)
    ensures r.fabricVersions.Keys == st.fabricVersions.Keys + {base}
    ensures r.fabricVersions[base] == "fabric-loader-0.16.10-" + base
    ensures Launch.IsFabricId(r.fabricVersions[base])
    ensures forall v :: v in st.fabricVersions && v != base ==> r.fabricVersions[v] == st.fabricVersions[v]
    ensures r == st.(fabricVersions := r.fabricVersions)
  {
    FabricVersionIdShape(base);
    st.(fabricVersions := st.fabricVersions[base := FabricVersionId(base)])
  }

  /** The rows `mostrar_versiones` shows: the installed ids, in order, minus those
      containing `fabric-loader`. */
  function VisibleVersions(installed: seq<string>): (r: seq<string>)
    ensures |r| <= |installed|
    ensures forall v :: v in r ==> v in installed && !Contains(v, FabricMarker)
    ensures forall v :: v in installed && !Contains(v, FabricMarker) ==> v in r
  {
    if installed == [] then []
    else
      var rest := VisibleVersions(installed[1..]);
      if Contains(installed[0], FabricMarker) then rest else [installed[0]] + rest
  }

  /** The list is filtered entry by entry: filtering a concatenation concatenates the
      filtered parts, so the rows keep the installed order and repeat what it repeats. */
  lemma {:induction false} VisibleVersionsAppend(a: seq<string>, b: seq<string>)
    ensures VisibleVersions(a + b) == VisibleVersions(a) + VisibleVersions(b)
  {
    if a == [] {
      assert a + b == b;
    } else {
      assert (a + b)[1..] == a[1..] + b;
      VisibleVersionsAppend(a[1..], b);
    }
  }

  /** One installed id is listed as itself exactly when it does not contain `fabric-loader`. */
  lemma VisibleVersionsOne(v: string)
    ensures VisibleVersions([v]) == if Contains(v, FabricMarker) then [] else [v]
  {
    assert [v][1..] == [];
  }

  /** The "No hay versiones instaladas" message of `mostrar_versiones`. */
  datatype NoVersions = NoVersions

  /** `mostrar_versiones`: no window at all when nothing is installed; otherwise the rows. The
      emptiness test is made before filtering, so a list holding only Fabric ids opens a
      window with no rows. */
  function ShowVersions(installed: seq<string>): (r: Result<seq<string>, NoVersions>)
    ensures r.Err? <==> installed == []
    ensures r.Ok? ==> r.value == VisibleVersions(installed)
  {
    if installed == [] then Err(NoVersions) else Ok(VisibleVersions(installed))
  }

  /** Only Fabric ids installed: the window opens, and lists nothing. */
  lemma OnlyFabricInstalledShowsEmptyWindow(base: string)
    ensures ShowVersions([FabricVersionId(base)]) == Ok([])
  {
    FabricVersionIdShape(base);
  }

  /** The checkbox caption of a row: "Activar Fabric" for a version with a recorded install,
      "Instalar Fabric" otherwise. */
  function CheckboxLabel(st: Launcher, v: string): (caption: string)
    ensures caption == "Activar Fabric" <==> v in st.fabricVersions
    ensures caption == "Activar Fabric" || caption == "Instalar Fabric"
  {
    if v in st.fabricVersions then "Activar Fabric" else "Instalar Fabric"
  }

  /** `on_toggle` for row `v` after the checkbox changed to `checked`: when it was ticked
      for a version without Fabric, the user is asked (`confirm`) and, on yes, Fabric is
      installed (`installOk` is the outcome of the install call). Returns the new state and
      the checkbox's value afterwards. */
  function Toggle(st: Launcher, v: string, checked: bool, confirm: bool, installOk: bool)
    : (r: (Launcher, bool))
    ensures r.0 == st.(fabricVersions := r.0.fabricVersions)
    ensures v in r.0.fabricVersions <==> v in st.fabricVersions || (checked && confirm && installOk)
    ensures r.0.fabricVersions.Keys <= st.fabricVersions.Keys + {v}
    ensures forall w :: w in st.fabricVersions ==>
              w in r.0.fabricVersions && r.0.fabricVersions[w] == st.fabricVersions[w]
    ensures v in r.0.fabricVersions && v !in st.fabricVersions ==>
              r.0.fabricVersions[v] == FabricVersionId(v)
    ensures r.1 <==> checked && v in r.0.fabricVersions
  {
    if checked && v !in st.fabricVersions then
      if confirm then
        if installOk then (RecordFabric(st, v), true) else (st, false)
      else (st, false)
    else (st, checked)
  }

  /** After `on_toggle`, the caption reads "Activar Fabric" exactly when the version had
      Fabric already or the install just succeeded, which is the caption the widget is given
      on success and the one a rebuilt row would show. */
  lemma ToggleRelabels(st: Launcher, v: string, checked: bool, confirm: bool, installOk: bool)
    ensures CheckboxLabel(Toggle(st, v, checked, confirm, installOk).0, v) == "Activar Fabric"
            <==> v in st.fabricVersions || (checked && confirm && installOk)
  {
  }

  /** For a version that already has Fabric, `on_toggle` asks nothing and changes nothing,
      so a second tick after a successful install is harmless. */
  lemma ToggleInstalledChangesNothing(st: Launcher, v: string, checked: bool, confirm: bool,
                                      installOk: bool)
    requires v in st.fabricVersions
    ensures Toggle(st, v, checked, confirm, installOk) == (st, checked)
  {
  }

  /** After `on_toggle`, "Seleccionar" with the value the box was left at picks a Fabric id
      exactly when the box is still ticked: the one recorded before, or else the one the
      install just recorded. */
  lemma ToggleThenSelect(st: Launcher, v: string, checked: bool, confirm: bool, installOk: bool,
                         ans: Answers, seen: Listings)
    ensures var (after, box) := Toggle(st, v, checked, confirm, installOk);
            Select(after, v, box, ans, seen).0.selectedVersion ==
              if !box then v
              else if v in st.fabricVersions then st.fabricVersions[v]
              else FabricVersionId(v)
  {
  }

  /** `on_select` for row `v` with the checkbox value `useFabric`, the answers to the
      additional-mods questions (asked only when the version's marker is absent) and the
      listings their downloads see: the new state and the mod downloads requested. */
  function Select(st: Launcher, v: string, useFabric: bool, ans: Answers, seen: Listings)
    : (r: (Launcher, seq<Mod>))
    ensures r.0.selectedVersion ==
              (if useFabric && v in st.fabricVersions then st.fabricVersions[v] else v)
    ensures r.0 == st.(selectedVersion := r.0.selectedVersion, modsFolder := r.0.modsFolder)
    ensures r.0.modsFolder ==
              st.modsFolder + (if useFabric && v in st.fabricVersions then {MarkerFile(v)} else {})
    ensures r.1 == if useFabric && v in st.fabricVersions then PostInstallPrompt(st, v, ans, seen).1 else []
    ensures |r.1| > 0 ==> useFabric && v in st.fabricVersions && MarkerFile(v) !in st.modsFolder
  {
    if useFabric && v in st.fabricVersions then
      var chosen := st.(selectedVersion := st.fabricVersions[v]);
      if MarkerFile(v) !in chosen.modsFolder then PostInstallPrompt(chosen, v, ans, seen)
      else (chosen, [])
    else (st.(selectedVersion := v), [])
  }

  /** Why the stand-alone "Instalar Fabric" dialog can fail. */
  datatype FabricPromptError =
    | EmptyVersion     // "Debes ingresar una versión"
    | InstallFailed    // "No se pudo instalar Fabric: …"

  /** `instalar_fabric_prompt`'s "Instalar Fabric" button with the typed text, the outcome
      of the install call, the answers to the additional-mods questions and the listings
      their downloads see. On success the Fabric id is recorded, Fabric API is downloaded
      unasked, and then the additional-mods prompt runs. Whether an extra mod raises the
      Fabric API question again depends on whether that first download has created its file
      by the time the mod's call lists the folder. */
  function InstallFabricFromPrompt(st: Launcher, text: string, installOk: bool, ans: Answers,
                                   seen: Listings)
    : (r: (Launcher, Result<seq<Mod>, FabricPromptError>))
    ensures r.1 == Err(EmptyVersion) <==> AllSpace(text)
    ensures r.1 == Err(InstallFailed) <==> !AllSpace(text) && !installOk
    ensures r.1.Err? ==> r.0 == st
    ensures r.1.Ok? ==>
              && r.0 == st.(fabricVersions := r.0.fabricVersions, modsFolder := r.0.modsFolder)
              && r.0.fabricVersions == st.fabricVersions[Trim(text) := FabricVersionId(Trim(text))]
              && r.0.modsFolder == st.modsFolder + {MarkerFile(Trim(text))}
              && |r.1.value| >= 1 && r.1.value[0] == FabricApi
              && WithoutApi(r.1.value) ==
                   (if MarkerFile(Trim(text)) in st.modsFolder then [] else DirectCalls(ans))
              && (FabricApi in r.1.value[1..] <==>
                   MarkerFile(Trim(text)) !in st.modsFolder && RequestsApi(seen, ans))
              && ApiLeadsMod(r.1.value[1..])
              && ApiMarksOffers(r.1.value[1..], seen, ans)
  {
    var ver := Trim(text);
    if ver == [] then (st, Err(EmptyVersion))
    else if !installOk then (st, Err(InstallFailed))
    else
      var recorded := RecordFabric(st, ver);
      // The mandatory download is of Fabric API itself: it asks nothing, whatever it lists.
      var api := DownloadMod(FabricApi, recorded.modsFolder, false);
      var prompted := PostInstallPrompt(recorded, ver, ans, seen);
      assert api == [FabricApi] by { FabricApiNameLowers(); }
      assert (api + prompted.1)[1..] == prompted.1;
      WithoutApiAppend(api, prompted.1);
      (prompted.0, Ok(api + prompted.1))
  }

  /** The downloads a successful dialog starts: Fabric API, then those of the
      additional-mods prompt for the stripped version. */
  lemma DialogDownloads(st: Launcher, text: string, ans: Answers, seen: Listings)
    requires !AllSpace(text)
    ensures InstallFabricFromPrompt(st, text, true, ans, seen).1 ==
              Ok([FabricApi] + PostInstallPrompt(RecordFabric(st, Trim(text)), Trim(text), ans, seen).1)
  {
    FabricApiNameLowers();
  }

  /** Once the dialog has installed Fabric for a version, "Seleccionar" with the box ticked
      picks its Fabric id and asks nothing more, since the marker is already written. */
  lemma InstallThenSelect(st: Launcher, text: string, installOk: bool, ans: Answers,
                          seen: Listings, later: Answers, laterSeen: Listings)
    requires InstallFabricFromPrompt(st, text, installOk, ans, seen).1.Ok?
    ensures var after := InstallFabricFromPrompt(st, text, installOk, ans, seen).0;
            Select(after, Trim(text), true, later, laterSeen) ==
              (after.(selectedVersion := FabricVersionId(Trim(text))), [])
  {
    var after := InstallFabricFromPrompt(st, text, installOk, ans, seen).0;
    assert after.modsFolder + {MarkerFile(Trim(text))} == after.modsFolder;
  }
}
